=== FILE: README.md ===
# nickdb-rs in Dafny

A model of the storage and query core of nickdb-rs, a small in-memory database written in Rust:

- **values**: `Value`, a tagged scalar that is a string, an `i32`, a `u32` or an `f32`. It has type tags, and conversions to and from the native types.
- **records**: `Record`, a hash map from field name to value.
- **tables**: `Table`, an optional schema (an insertion-ordered map from field name to type) plus rows in insertion order. A table checks each row against its schema, and a generic table adopts the schema of its first row. It also supports removal, projection (`get_fields`) and filtering (`get_records_where`, `get_records_where_eql`).
- **databases**: `DB`, named tables with routed inserts and the key join `join_tables`.

The model is functional:

- A call on `&mut self` returns a `Step(state, result)`.
- Every `unwrap` or direct index that can fail makes the operation return an `Outcome`. The outcome is `Panicked` when the Rust code would panic.
- Rust's `HashMap` iteration order is unspecified. It matters in two places.
  - The schema a generic table adopts follows the order of the first row's fields. This is a parameter `iter` that gives, for each map, an enumeration of its keys.
  - `join_tables` copies each primary row's fields in that row's own order. Every `HashMap` has its own random state, so two equal rows may be visited in different orders. The join therefore takes one field order per primary row (`orders`), each any enumeration of that row's keys.
  - Every property is proved for all such orders.

Modules, one file each:

- `Wrappers`: `Option`, `Result`, `Outcome`, `Step`.
- `Errors`: `TableError`.
- `Values`, `Records`.
- `Schemas`: the `IndexMap` schema, `field_types!`, the row check, schema adoption.
- `Ordering`: `Operator` and `create_comp_func`.
- `Tables`, `Db`.

The main results:

- **Row check.** A table with a schema accepts exactly the rows that carry every schema field with its declared type. Otherwise it reports the first offending field's error and is left unchanged.
- **Adoption.** A generic table's adopted schema accepts a later row exactly when that row has every field of the first row with the same types. This holds whatever order the first row's fields were visited in.
- **Projection.** `get_fields` returns one row per input row holding exactly the requested fields. On a table with a schema whose rows all have the requested fields, it returns exactly when every row's projection has the first projection's shape, and otherwise panics.
- **Filtering.** On a valid table, with a declared field and a comparison value of that field's type, the two filters return exactly the rows satisfying the test, in their original order. Their result is characterized both as a subsequence and by multiplicities. Outside that case, `get_records_where` fails with `InvalidField` or `MismatchedTypes`. `get_records_where_eql` fails with `InvalidField` on an undeclared field, and panics on a value of another type unless the table has no rows.
- **Join.** The joined row is given in closed form: primary fields up to the key, then the matching foreign rows merged in foreign order, then the remaining primary fields. Once both tables exist, the foreign table has a schema and the key is declared, the join never reports an error. It returns the joined table exactly when all joined rows have the first joined row's shape, and otherwise panics at the final `unwrap`. Because the order belongs to the row, two equal primary rows can make the join panic when visited in different orders and return when visited alike. The `main` program's example, two people joined with their ages, is proved to give the expected table.

Two behaviours of the code that the model keeps:

- `join_tables` does not always produce one row per primary row. It panics at `src/db.rs:100` when the joined rows differ in shape, for example an unmatched primary row after a matched one, or two equal rows visited in different field orders. See `Db.JoinTablesReturnsIff`, `Db.JoinPanicsOnUnmatchedAfterMatched` and `Db.JoinEqualRowsVisitedDifferently`.
- `ForeignTableIsEmpty` is raised only for a foreign table without a schema (`src/db.rs:77-79`), not for one without rows. A database's tables always have a schema, since `add_table` gives one, so this error is never raised through `DB`.

## Model

| member | source | states |
|---|---|---|
| Values.ToTypeNamesVariant | src/value.rs:23-32 | the type tag of a value names its variant, for each of the four variants in both directions |
| Values.AsStr | src/value.rs:34-42 | extracting a string succeeds exactly on a `Str` value and otherwise fails with `MismatchedTypes` |
| Values.AsI32 | src/value.rs:43-51 | extracting an `i32` succeeds exactly on an `Int` value and otherwise fails with `MismatchedTypes` |
| Values.AsU32 | src/value.rs:52-60 | extracting a `u32` succeeds exactly on a `UInt` value and otherwise fails with `MismatchedTypes` |
| Values.AsF32 | src/value.rs:61-69 | extracting an `f32` succeeds exactly on a `Float` value and otherwise fails with `MismatchedTypes` |
| Values.FromStr | src/value.rs:71-75 | a value made from a string has the `Str` tag and extracting a string gives the original back |
| Values.FromI32 | src/value.rs:76-80 | a value made from an `i32` has the `Int` tag and extracting gives the original back |
| Values.FromU32 | src/value.rs:81-85 | a value made from a `u32` has the `UInt` tag and extracting gives the original back |
| Values.FromF32 | src/value.rs:86-90 | a value made from an `f32` has the `Float` tag and extracting gives the original back |
| Values.Extract | src/value.rs:34-69 | the generic `try_into` succeeds exactly when the requested type is the value's own, returns the same value, and otherwise fails with `MismatchedTypes` |
| Records.GetFieldAsValue | src/record.rs:34-36 | an untyped lookup finds a value exactly for a field the record has, and it is that field's value |
| Records.FieldCnt | src/record.rs:58-60 | the field count is the number of field names, and it is zero exactly for a record without fields |
| Records.ContainsField | src/record.rs:54-56 | a record contains a field exactly when looking the field up finds a value |
| Records.NewRecord | src/record.rs:13-17 | a new record has no fields |
| Records.AddField | src/record.rs:23-32 | after adding a field, looking it up gives the new value and every other field is unchanged |
| Records.AddFieldCount | src/record.rs:23-28 | adding an existing field name keeps the field count, and a new name raises it by one |
| Records.GetField | src/record.rs:43-52 | a typed read fails with `InvalidField` exactly when the field is absent, with `MismatchedTypes` exactly when it holds another type, and otherwise returns the stored value |
| Records.ExtendFields | src/record.rs:19-21 | extending a record gives it the union of both field sets, the other record's values winning on shared names |
| Records.RecordOf | src/record.rs:78-88 | `record!` with no pairs gives a record without fields, and otherwise the last name given reads back the last value given |
| Records.RecordOfKeys | src/record.rs:78-88 | the `record!` macro yields a record whose fields are exactly the names given |
| Records.RecordOfLastWins | src/record.rs:78-88 | a name given several times to `record!` keeps the value of its last occurrence |
| Ordering.StrLess | src/table.rs:24-30 | Rust's `<` on string slices, lexicographic on the characters, never holds between equal strings |
| Ordering.Compare | src/table.rs:24-30 | `EqualTo` holds exactly for equal values. On `i32` and `u32` payloads `LessThan` is `a < b` and `GreaterThan` is `a > b`. On strings `LessThan` is `a < b` and `GreaterThan` is `b < a` in lexicographic order. A strict comparison never holds for equal values |
| Ordering.CompareConverse | src/table.rs:24-30 | `GreaterThan` on `a, b` is `LessThan` on `b, a` |
| Ordering.StrLessPrefix | src/table.rs:24-30 | on strings, a proper prefix is less than the string it starts |
| Ordering.StrLessFirstDifference | src/table.rs:24-30 | on strings, at the first index where two strings differ, the characters there decide which is less |
| Ordering.CompareTrichotomy | src/table.rs:24-30 | for two values of the same orderable type exactly one of less-than, equal-to and greater-than holds |
| Ordering.CompareTransitive | src/table.rs:24-30 | greater-than and less-than are transitive |
| Schemas.Lookup | src/table.rs:206-208 | the schema lookup finds a type exactly for a declared name, and in a schema without duplicate names it is that entry's type |
| Schemas.SchemaInsert | src/table.rs:50 | after an insert the name maps to the new type, every other name keeps its lookup, and the name set gains the name |
| Schemas.SchemaInsertLength | src/table.rs:50 | an insert grows the schema by one entry exactly when the name is new |
| Schemas.SchemaInsertPositions | src/table.rs:50 | an insert keeps every existing entry in its position, and a new name goes at the end |
| Schemas.SchemaInsertDistinct | src/table.rs:50 | an insert never introduces a duplicate name |
| Schemas.TypeTag | src/table.rs:43-49 | a type tag is recognised exactly when it is one of `str`, `int`, `uint`, `float`, and each tag names its own variant |
| Schemas.FieldTypes | src/table.rs:38-55 | `field_types!` yields a schema without duplicates naming exactly the names given |
| Schemas.FieldTypesLastWins | src/table.rs:38-55 | a name given several times to `field_types!` gets the type of its last occurrence |
| Schemas.CheckRecord | src/table.rs:97-104 | the row check passes exactly when the row has every schema field with its declared type, extra fields allowed |
| Schemas.CheckRecordFirstOffender | src/table.rs:97-104 | the check fails with `IncorrectFieldNames` exactly when the first offending entry in schema order is missing, and with `IncorrectFieldTypes` exactly when it is present with the wrong type |
| Schemas.Adopt | src/table.rs:86-91 | the adopted schema has one entry per visited field, in visiting order, with that field's type |
| Schemas.AdoptedSchema | src/table.rs:86-91 | the adopted schema has no duplicate names, names exactly the first row's fields, and accepts the first row |
| Schemas.AdoptedSchemaFits | src/table.rs:86-104 | whatever the visiting order, a later row fits the adopted schema exactly when it has every field of the first row with the same type |
| Schemas.SchemaTypeOfField | src/table.rs:217-219 | in a row that fits a schema, a declared field is present with its declared type, so the typed read cannot fail |
| Tables.New | src/table.rs:63-68 | a new table has the given schema, no rows, and satisfies the table invariant |
| Tables.NewGeneric | src/table.rs:73-78 | a generic table has no schema and no rows |
| Tables.RecordCnt | src/table.rs:80-82 | the record count is the number of rows, and it is zero exactly for a table without rows |
| Tables.AddRecord | src/table.rs:85-108 | an accepted row is appended, a rejected row leaves the table as it was, and a generic table always accepts its first row. A table with a schema keeps it and answers with the row check's result. The table invariant is preserved |
| Tables.AddRecordAdopts | src/table.rs:86-95 | a generic table's first row is accepted and the adopted schema names exactly its fields, each with the type of its value |
| Tables.AddFittingRecord | src/table.rs:97-107 | a row that fits the schema is appended with an `Ok` result |
| Tables.AddRecords | src/table.rs:111-116 | inserting a batch preserves the table invariant and keeps an existing schema |
| Tables.AddRecordsKeepsAccepted | src/table.rs:111-116 | after a batch the table holds its old rows followed by a prefix of the batch |
| Tables.AddRecordsStopsAtFirstError | src/table.rs:111-116 | the batch succeeds exactly when every row is appended. Otherwise the rows before the first rejected one stay inserted, and the error is the one that row gets |
| Tables.RemoveRecord | src/table.rs:118-123 | removal returns nothing exactly for an index past the end. Otherwise it returns that row, shifts the later rows down by one, leaves the rest and the schema alone, and preserves the table invariant |
| Tables.GetRecord | src/table.rs:125-130 | `get_record` returns the row at an index inside the table and nothing past the end |
| Tables.RemoveReturnsRecord | src/table.rs:118-130 | `remove_record` returns what `get_record` returns at the same index |
| Tables.GetField | src/table.rs:132-141 | a typed read of a table cell panics exactly for a row index past the end. It fails with `InvalidField` or `MismatchedTypes` exactly as the row's read does, and otherwise returns the stored value |
| Tables.ChangeField | src/table.rs:143-163 | a field update panics exactly for a row index past the end, and fails with `InvalidField` or `MismatchedTypes` leaving the table unchanged. Otherwise it changes exactly that cell, so that reading it back gives the new value, and preserves the table invariant |
| Tables.Project | src/table.rs:176-183 | copying the requested fields of a row succeeds exactly when the row has all of them, and otherwise fails with `InvalidField` |
| Tables.ProjectAdds | src/table.rs:176-183 | a successful copy adds exactly the requested fields, with the row's values, to the accumulated row |
| Tables.ProjectFresh | src/table.rs:176-183 | projecting into a fresh row yields exactly the requested fields of the row |
| Tables.Projected | src/table.rs:174-185 | the reference projection has one row per input row |
| Tables.ProjectedAt | src/table.rs:174-185 | each reference-projected row holds exactly the requested fields of its input row |
| Tables.GetFields | src/table.rs:166-172 | on a table without a schema, projection fails with `TableHasNoFields` when fields are requested and returns an empty generic table when none are. An empty table with a schema projects to an empty generic table |
| Tables.ProjectRows | src/table.rs:174-187 | a projection loop that returns a table has added one row per input row, and one that returns an error reports `InvalidField` |
| Tables.ProjectRowsFails | src/table.rs:177-180 | the projection loop fails only with `InvalidField`, and only when some row lacks a requested field |
| Tables.ProjectRowsStep | src/table.rs:175-185 | a loop turn that does not stop the loop finds every requested field in the row and adds its projection |
| Tables.ProjectRowsAppends | src/table.rs:174-187 | a projection loop that returns has appended exactly the reference projection of its rows, and the result satisfies the table invariant |
| Tables.GetFieldsRows | src/table.rs:166-188 | a successful projection has one row per input row, in order, each holding exactly the requested fields with the input's values. A failed one reports `InvalidField` for a missing field |
| Tables.ProjectRowsSchema | src/table.rs:174-187 | a projection loop that returns keeps an existing schema, and gives a generic table the schema adopted from the first projected row |
| Tables.ProjectRowsReturns | src/table.rs:174-185 | the projection loop returns a table when every row has the fields and every projection fits the schema that the first projection sets |
| Tables.GetFieldsOfSchemaFields | src/table.rs:166-188 | on a valid table, projecting fields the schema declares neither panics nor fails |
| Tables.GetFieldsPanicsOnVaryingType | src/table.rs:184 | when the first two rows hold a requested field with different types, the `unwrap` on adding the second projection panics |
| Tables.GetFieldsReturnsIff | src/table.rs:166-188 | on a table with a schema whose rows all have the requested fields, projection never fails, and it returns exactly when every row's projection has the first projection's shape |
| Tables.FilterSpec | src/table.rs:216-223 | the reference filter keeps a subsequence of the rows, holding each row that passes the test as often as the input does and no other row |
| Tables.GetRecordsWhere | src/table.rs:191-212 | on a table without a schema the result is an empty generic table. An undeclared field fails with `InvalidField`, and a comparison value of the wrong type fails with `MismatchedTypes` |
| Tables.WhereRows | src/table.rs:216-223 | a filter loop that returns keeps the schema and adds at most one row per input row |
| Tables.WhereRowsFilters | src/table.rs:216-223 | on rows that fit the schema, the scan appends exactly the reference filter of the rows |
| Tables.GetRecordsWhereFilters | src/table.rs:191-226 | on a valid table, a declared field and a value of its type, the result has the same schema and exactly the rows whose field compares as asked, in order, and it satisfies the table invariant |
| Tables.FilterKeepsConforming | src/table.rs:216-222 | every row a filter keeps still fits the schema its input fitted |
| Tables.GetRecordsWhereEql | src/table.rs:231-247 | on a table without a schema the result is an empty generic table, and an undeclared field fails with `InvalidField` |
| Tables.EqlRows | src/table.rs:249-256 | an equality loop that returns keeps the schema and adds at most one row per input row |
| Tables.EqlRowsFilters | src/table.rs:249-256 | on rows that fit the schema, the equality scan appends exactly the rows whose field equals the value |
| Tables.GetRecordsWhereEqlFilters | src/table.rs:231-259 | with a value of the field's type the result is the same-schema table of exactly the equal rows, in order, and it satisfies the table invariant. With a value of another type it panics, unless the table has no rows |
| Db.Lift | src/db.rs:12-16 | a table result seen through the database succeeds exactly when the table's did, and a table error comes back wrapped unchanged |
| Db.NewDB | src/db.rs:25-29 | a new database has no tables |
| Db.AddTable | src/db.rs:31-37 | the named table becomes a new empty table with the given schema, every other table is unchanged, and the database invariant is preserved |
| Db.GetTable | src/db.rs:39-41 | a table is found exactly for a name the database has, and it is the table stored under that name |
| Db.AddRecord | src/db.rs:44-51 | an unknown table name fails with `InvalidTable` and changes nothing. Otherwise the named table takes the table insert's state and result, the other tables are unchanged, and the database invariant is preserved |
| Db.AddRecordToTable | src/db.rs:44-51 | in a valid database, a row is accepted exactly when it fits the named table's schema and is then appended. Otherwise the row check's error comes back wrapped |
| Db.AddRecords | src/db.rs:54-61 | an unknown table name fails with `InvalidTable`. Otherwise the named table takes the batch insert's state and result, and the other tables are unchanged |
| Db.AddRecordsKeepsPrefix | src/db.rs:54-61 | through the database, a batch leaves the named table holding its old rows followed by a prefix of the batch |
| Db.AddRecordsReportsFirstError | src/db.rs:54-61 | through the database, a batch succeeds exactly when every row is kept, and otherwise reports the first rejected row's error, wrapped |
| Db.OverlayKeys | src/db.rs:94-98 | merging a sequence of rows yields exactly the fields some row has |
| Db.OverlayLastWins | src/db.rs:94-98 | a merged field holds the value of the last row that has it |
| Db.OverlayValueFrom | src/db.rs:94-98 | every merged field holds the value of some row that has it |
| Db.MergeMatches | src/db.rs:94-98 | the foreign scan cannot panic when every foreign row has the key |
| Db.MergeMatchesSpec | src/db.rs:94-98 | the foreign scan panics exactly when some foreign row lacks the key. Otherwise it merges the foreign rows whose key equals the value, in foreign order, over what was accumulated |
| Db.MatchesHaveKey | src/db.rs:95 | every matching foreign row has the key with the value matched on |
| Db.MatchesInclude | src/db.rs:95 | a foreign row that has the key is among the matches for its own key value |
| Db.NoMatches | src/db.rs:95 | without a foreign row whose key equals the value there are no matches |
| Db.UpToAfterSplit | src/db.rs:87-92 | the fields visited up to the key, then those after it, make up the whole visiting order, and with distinct names the key is not visited again |
| Db.JoinFields | src/db.rs:87-98 | the field loop cannot panic when the key is not among the fields visited or every foreign row has the key |
| Db.JoinFieldsSpec | src/db.rs:86-99 | the field loop panics only when the key is visited and some foreign row lacks it. Otherwise it builds the closed form: primary fields up to the key, then the merged matches, then the remaining primary fields |
| Db.JoinRecord | src/db.rs:85-99 | joining a primary row cannot panic when the row lacks the key or every foreign row has it |
| Db.JoinRecordSpec | src/db.rs:85-99 | joining a primary row panics exactly when the row has the key and some foreign row lacks it. Otherwise it gives the closed form for the row's visiting order |
| Db.JoinedAt | src/db.rs:87-98 | in the closed form, a field after the key keeps the primary value, and another field takes the merged foreign value when there is one |
| Db.JoinedRowWithoutKey | src/db.rs:87-92 | a primary row without the key is copied unchanged |
| Db.JoinedRowPanics | src/db.rs:94-95 | a primary row with the key joins exactly when every foreign row has the key |
| Db.JoinedRowKeys | src/db.rs:86-98 | a joined row has the primary row's fields together with those of every matching foreign row, and its key keeps the primary value |
| Db.JoinedRowForeignOnly | src/db.rs:94-98 | a field that only foreign rows supply takes the value of the last matching foreign row that has it |
| Db.JoinedRowPrimaryFields | src/db.rs:87-98 | a primary field that no match supplies keeps the primary value. A field both sides supply holds one of the two values, chosen by the field visiting order |
| Db.JoinedRowOrderDecides | src/db.rs:87-98 | for a field that a primary row shares with its one match, the row's field order decides the joined value: visited after the key it keeps the primary value, visited before it takes the foreign one |
| Db.JoinSingleMatch | src/db.rs:86-98 | a primary row with exactly one match, sharing only the key with it, joins to the union of the two rows in any visiting order |
| Db.JoinTables | src/db.rs:64-103 | a missing primary table, then a missing foreign table, fail with `InvalidTable`. A foreign table without a schema fails with `ForeignTableIsEmpty`, and an undeclared key fails with `InvalidForeignKey`. Success implies that none of these hold, and an error is reported only when one of them does |
| Db.JoinRows | src/db.rs:84-101 | a join loop that returns has added one row per primary row |
| Db.JoinRowsAppends | src/db.rs:84-101 | a join loop that returns has added one row per primary row after the rows already present, and satisfies the table invariant |
| Db.JoinRowsJoinsEach | src/db.rs:84-101 | the rows a returning join loop adds are, in order, the joins of the primary rows, each in that row's own field order |
| Db.JoinRowsSchema | src/db.rs:84-101 | a join loop that returns gives a generic result table the schema adopted from the first joined row |
| Db.JoinRowsReturns | src/db.rs:84-101 | the join loop returns when every row joins in its own field order and every joined row fits the schema set by the first |
| Db.JoinTablesRows | src/db.rs:64-104 | a successful join has as many rows as the primary table, in order, each the join of its primary row in that row's own field order, and satisfies the table invariant |
| Db.ForeignRowsHaveKey | src/db.rs:94-95 | in a valid database every foreign row has a declared key, so that `unwrap` cannot panic |
| Db.JoinTablesReturnsIff | src/db.rs:84-103 | in a valid database with a declared key, every primary row joins in any field order of its own. The join never reports an error, and it returns the joined table exactly when every joined row has the first joined row's shape |
| Db.JoinEqualRowsVisitedDifferently | src/db.rs:84-101 | two equal primary rows whose shared field has another type in their one match make the join panic when visited in different field orders, and return when visited alike |
| Db.JoinPanicsOnUnmatchedAfterMatched | src/db.rs:94-100 | a primary row that gains a foreign field, followed by one that lacks that field and has no match, makes the final `unwrap` panic |
| Db.ExampleSchemas | src/main.rs:12-18 | the example's two `field_types!` calls yield the two-entry schemas (ID: uint, name: str) and (ID: uint, age: uint) |
| Db.ExampleRecords | src/main.rs:14-21 | the example's `record!` rows are the person and age rows, whichever order their fields are written in |
| Db.ExampleDBTables | src/main.rs:10-22 | building the example database succeeds: the name table holds (0, nick) and (1, james), and the age table holds (0, 15) and (1, 45) |
| Db.JoinExample | src/main.rs:26-28 | joining the example's name table with its age table on `ID` returns the rows (0, nick, 15) and (1, james, 45), in that order, for every field order of each name row |

## Left out

- `src/display.rs` (table printing) and `src/main.rs` (a demo driver): these are presentation and I/O. Only the demo's data, as the worked example, is modelled.
- `Record::iter`, `Record::into_iter`, `Table::iter` and `DB::iter` hand out iterators, which have no counterpart in a value model. Their contents are the record's map and the table's row sequence.
- `get_mut_field_as_value` returns a mutable borrow and is modelled only through its one use, inside `Tables.ChangeField`.
- `add_field_as_value` is `add_field` without the `From` conversion, so both are `Records.AddField`.
- `TableError::InvalidOperator` is declared but never raised.
- Lifetimes and borrowing carry no meaning for the data, and are dropped.
- `usize` indexes and counts are `nat`. A `Vec` longer than `usize::MAX` cannot exist.
- `Values.Extract`: `f32` payloads are kept as their 32-bit patterns and compared as such. IEEE equality differs on NaN and on positive and negative zero, and that is not modelled.
- `Tables.GetRecordsWhereEql`: compares `f32` values by bit pattern, for the same reason.
- `Db.MergeMatchesSpec`: matches an `f32` key by bit pattern, for the same reason.
- `Schemas.FieldTypes`: an unknown type tag makes the `field_types!` macro panic. The model requires known tags instead of modelling that panic.
- `Schemas.SchemaInsert`: `IndexMap::insert` also returns the old value. The callers discard it, so the model does not return it.
- Hash map iteration order is not modelled concretely. It is the parameter `iter` for schema adoption, and one order per primary row for the join, each constrained only to list every key of its map once. Properties hold for every such order, so they say nothing about which order the Rust standard library picks.

=== FILE: db.dfy ===
/** A database: named tables, insert routing and the key join (`src/db.rs`). */
module Db {
  import opened Wrappers
  import opened Errors
  import opened Values
  import opened Records
  import opened Schemas
  import opened Tables

  datatype DBError =
    | InvalidTable
    | TableError(error: Errors.TableError)
    | ForeignTableIsEmpty
    | InvalidForeignKey

  /** `From<TableError> for DBError`: a table's outcome seen through the database. */
  function Lift(r: Result<(), Errors.TableError>): (d: Result<(), DBError>)
    ensures d.Ok? <==> r.Ok?
    ensures r.Err? ==> d.error.TableError? && d.error.error == r.error
  {
    match r
    case Ok(u) => Ok(u)
    case Err(e) => Err(DBError.TableError(e))
  }

  datatype DB = DB(tables: map<string, Table>)

  /** Every table of a database is created with a schema, and each keeps the table invariant. */
  predicate ValidDB(db: DB)
  {
    forall n :: n in db.tables ==> db.tables[n].fieldTypes.Some? && Valid(db.tables[n])
  }

  /** `DB::new`. */
  function NewDB(): (db: DB)
    ensures ValidDB(db)
    ensures forall n :: GetTable(db, n).None?
  {
    DB(map[])
  }

  /** `get_table`. */
  function GetTable(db: DB, name: string): (o: Option<Table>)
    ensures o.Some? <==> name in db.tables
    ensures o.Some? ==> o.value == db.tables[name]
  {
    if name in db.tables then Some(db.tables[name]) else None
  }

  /** `add_table`: installs an empty table with the given schema, replacing any table of
      that name. */
  function AddTable(db: DB, name: string, s: Schema): (db': DB)
    requires DistinctNames(s)
    ensures GetTable(db', name) == Some(New(s))
    ensures RecordCnt(GetTable(db', name).value) == 0
    ensures forall n :: n != name ==> GetTable(db', n) == GetTable(db, n)
    ensures ValidDB(db) ==> ValidDB(db')
  {
    DB(db.tables[name := New(s)])
  }

  /** `DB::add_record`: routes the record to the named table. */
  function AddRecord(db: DB, name: string, rec: Record, iter: Iteration): (s: Step<DB, Result<(), DBError>>)
    requires IsIteration(iter)
    ensures name !in db.tables ==> s == Step(db, Err(InvalidTable))
    ensures name in db.tables ==>
      && GetTable(s.state, name) == Some(Tables.AddRecord(db.tables[name], rec, iter).state)
      && s.result == Lift(Tables.AddRecord(db.tables[name], rec, iter).result)
    ensures s.result.Err? ==> s.state == db
    ensures forall n :: n != name ==> GetTable(s.state, n) == GetTable(db, n)
    ensures ValidDB(db) ==> ValidDB(s.state)
  {
    if name !in db.tables then Step(db, Err(InvalidTable))
    else
      var t := db.tables[name];
      var ts := Tables.AddRecord(t, rec, iter);
      if ts.result.Err? then
        assert db.tables[name := ts.state] == db.tables;
        Step(db, Lift(ts.result))
      else Step(DB(db.tables[name := ts.state]), Lift(ts.result))
  }

  /** In a valid database, a record is accepted exactly when it fits the named table's
      schema; it is then appended, and otherwise the schema check's error comes back
      wrapped. */
  lemma AddRecordToTable(db: DB, name: string, rec: Record, iter: Iteration)
    requires IsIteration(iter)
    requires ValidDB(db) && name in db.tables
    ensures var t := db.tables[name];
      var s := AddRecord(db, name, rec, iter);
      && (s.result.Ok? <==> Conforms(rec, t.fieldTypes.value))
      && (s.result.Ok? ==> GetTable(s.state, name) == Some(Table(t.fieldTypes, t.records + [rec])))
      && (s.result.Err? ==> s.result == Err(DBError.TableError(CheckRecord(t.fieldTypes.value, rec).error)))
  {
    var t := db.tables[name];
    if Conforms(rec, t.fieldTypes.value) {
      AddFittingRecord(t, rec, iter);
    }
  }

  /** `DB::add_records`: routes the records to the named table. */
  function AddRecords(db: DB, name: string, recs: seq<Record>, iter: Iteration): (s: Step<DB, Result<(), DBError>>)
    requires IsIteration(iter)
    ensures name !in db.tables ==> s == Step(db, Err(InvalidTable))
    ensures name in db.tables ==>
      && GetTable(s.state, name) == Some(Tables.AddRecords(db.tables[name], recs, iter).state)
      && s.result == Lift(Tables.AddRecords(db.tables[name], recs, iter).result)
    ensures forall n :: n != name ==> GetTable(s.state, n) == GetTable(db, n)
    ensures ValidDB(db) ==> ValidDB(s.state)
  {
    if name !in db.tables then Step(db, Err(InvalidTable))
    else
      var ts := Tables.AddRecords(db.tables[name], recs, iter);
      Step(DB(db.tables[name := ts.state]), Lift(ts.result))
  }

  /** Inserting several records through the database keeps the table's old records
      followed by a prefix of the new ones. */
  lemma AddRecordsKeepsPrefix(db: DB, name: string, recs: seq<Record>, iter: Iteration)
    requires IsIteration(iter)
    requires name in db.tables
    ensures var t := db.tables[name];
      var k := RecordCnt(AddRecords(db, name, recs, iter).state.tables[name]) - RecordCnt(t);
      && 0 <= k <= |recs|
      && AddRecords(db, name, recs, iter).state.tables[name].records == t.records + recs[..k]
  {
    var t := db.tables[name];
    AddRecordsKeepsAccepted(t, recs, iter);
    assert AddRecords(db, name, recs, iter).state.tables[name] == Tables.AddRecords(t, recs, iter).state;
  }

  /** Inserting several records through the database succeeds exactly when all of them
      are kept; otherwise it reports the error of the first rejected one. */
  lemma AddRecordsReportsFirstError(db: DB, name: string, recs: seq<Record>, iter: Iteration)
    requires IsIteration(iter)
    requires name in db.tables
    ensures var t := db.tables[name];
      var s := AddRecords(db, name, recs, iter);
      var k := RecordCnt(s.state.tables[name]) - RecordCnt(t);
      && (s.result.Ok? <==> k == |recs|)
      && (s.result.Err? ==> 0 <= k < |recs| && s.result == Lift(Tables.AddRecord(s.state.tables[name], recs[k], iter).result))
  {
    var t := db.tables[name];
    var ts := Tables.AddRecords(t, recs, iter);
    AddRecordsStopsAtFirstError(t, recs, iter);
    var s := AddRecords(db, name, recs, iter);
    assert s.state.tables[name] == ts.state;
    assert s.result == Lift(ts.result);
    var k := |ts.state.records| - |t.records|;
    if ts.result.Err? {
      assert Tables.AddRecord(ts.state, recs[k], iter).result == ts.result;
    }
  }

  // ---- The join: `join_tables` ----

  /** Every foreign row has the key, so the `unwrap` on its lookup cannot panic. */
  predicate AllHaveKey(foreign: seq<Record>, key: string)
  {
    forall k :: 0 <= k < |foreign| ==> key in foreign[k].fields
  }

  lemma AllHaveKeyCons(foreign: seq<Record>, key: string)
    requires |foreign| > 0
    ensures AllHaveKey(foreign, key) <==> key in foreign[0].fields && AllHaveKey(foreign[1..], key)
  {
    var rest := foreign[1..];
    if key in foreign[0].fields && AllHaveKey(rest, key) {
      forall k | 0 <= k < |foreign| ensures key in foreign[k].fields {
        if k > 0 { assert foreign[k] == rest[k - 1]; }
      }
    }
    if AllHaveKey(foreign, key) {
      forall k | 0 <= k < |rest| ensures key in rest[k].fields {
        assert rest[k] == foreign[k + 1];
      }
    }
  }

  /** The foreign rows whose key equals `v`, in foreign-table order. */
  function Matches(foreign: seq<Record>, key: string, v: Value): seq<Record>
  {
    Filter(foreign, FieldEquals(key, v))
  }

  /** The fields of a sequence of rows merged one after another, later rows overwriting
      earlier ones. */
  function Overlay(rs: seq<Record>): map<string, Value>
    decreases |rs|
  {
    if |rs| == 0 then map[] else rs[0].fields + Overlay(rs[1..])
  }

  /** A merged field comes from one of the rows. */
  lemma {:induction false} OverlayKeys(rs: seq<Record>, f: string)
    ensures f in Overlay(rs) <==> exists i :: 0 <= i < |rs| && f in rs[i].fields
    decreases |rs|
  {
    if |rs| > 0 {
      OverlayKeys(rs[1..], f);
      if exists i :: 0 <= i < |rs| && f in rs[i].fields {
        var i :| 0 <= i < |rs| && f in rs[i].fields;
        if i > 0 { assert f in rs[1..][i - 1].fields; }
      }
      if exists i :: 0 <= i < |rs[1..]| && f in rs[1..][i].fields {
        var i :| 0 <= i < |rs[1..]| && f in rs[1..][i].fields;
        assert f in rs[i + 1].fields;
      }
    }
  }

  /** A merged field holds the value of the last row that has it. */
  lemma {:induction false} OverlayLastWins(rs: seq<Record>, i: nat, f: string)
    requires i < |rs| && f in rs[i].fields
    requires forall j :: i < j < |rs| ==> f !in rs[j].fields
    ensures f in Overlay(rs) && Overlay(rs)[f] == rs[i].fields[f]
    decreases |rs|
  {
    if i == 0 {
      forall j | 0 <= j < |rs[1..]| ensures f !in rs[1..][j].fields {
        assert rs[1..][j] == rs[j + 1];
      }
      OverlayKeys(rs[1..], f);
    } else {
      forall j | i - 1 < j < |rs[1..]| ensures f !in rs[1..][j].fields {
        assert rs[1..][j] == rs[j + 1];
      }
      OverlayLastWins(rs[1..], i - 1, f);
    }
  }

  /** Map union is associative; stated once so that larger proofs need not rediscover it. */
  lemma MapUnionAssoc<K, V>(a: map<K, V>, b: map<K, V>, c: map<K, V>)
    ensures (a + b) + c == a + (b + c)
  {
  }

  /** The scan of the foreign table for one primary key value: every foreign row's key is
      fetched with an `unwrap`, and the rows whose key equals `v` are merged in. */
  function MergeMatches(acc: Record, foreign: seq<Record>, key: string, v: Value): (o: Outcome<Record>)
    ensures AllHaveKey(foreign, key) ==> o.Returned?
    decreases |foreign|
  {
    if |foreign| == 0 then Returned(acc)
    else
      match GetFieldAsValue(foreign[0], key)
      case None => Panicked
      case Some(w) =>
        MergeMatches(if w == v then ExtendFields(acc, foreign[0]) else acc, foreign[1..], key, v)
  }

  /** The scan panics exactly when some foreign row lacks the key, and otherwise merges
      the matching rows in foreign-table order over what was accumulated. */
  lemma {:induction false} MergeMatchesSpec(acc: Record, foreign: seq<Record>, key: string, v: Value)
    ensures MergeMatches(acc, foreign, key, v) ==
      if AllHaveKey(foreign, key) then Returned(Record(acc.fields + Overlay(Matches(foreign, key, v))))
      else Panicked
    decreases |foreign|
  {
    if |foreign| == 0 {
      assert acc.fields + map[] == acc.fields;
    } else {
      var f0 := foreign[0];
      var rest := foreign[1..];
      AllHaveKeyCons(foreign, key);
      if key in f0.fields {
        var hit := f0.fields[key] == v;
        var acc' := if hit then ExtendFields(acc, f0) else acc;
        MergeMatchesSpec(acc', rest, key, v);
        var ms := Matches(rest, key, v);
        if hit {
          assert Matches(foreign, key, v) == [f0] + ms;
          assert ([f0] + ms)[1..] == ms;
          assert Overlay([f0] + ms) == f0.fields + Overlay(ms);
          MapUnionAssoc(acc.fields, f0.fields, Overlay(ms));
        } else {
          assert Matches(foreign, key, v) == ms;
        }
      }
    }
  }

  /** The names `order` yields up to and including the key (all of them if the key is
      not among them). */
  function UpTo(order: seq<string>, key: string): (r: seq<string>)
    ensures forall n :: n in r ==> n in order
    decreases |order|
  {
    if |order| == 0 then []
    else if order[0] == key then [key]
    else [order[0]] + UpTo(order[1..], key)
  }

  /** The names `order` yields after the key. */
  function After(order: seq<string>, key: string): (r: seq<string>)
    ensures forall n :: n in r ==> n in order
    decreases |order|
  {
    if |order| == 0 then []
    else if order[0] == key then order[1..]
    else After(order[1..], key)
  }

  /** The two parts make up the whole order, and a key the order yields once ends the
      first part and is missing from the second. */
  lemma {:induction false} UpToAfterSplit(order: seq<string>, key: string)
    ensures order == UpTo(order, key) + After(order, key)
    ensures key in order ==> key in UpTo(order, key)
    ensures key in order && (forall i, j :: 0 <= i < j < |order| ==> order[i] != order[j]) ==> key !in After(order, key)
    decreases |order|
  {
    if |order| > 0 {
      var rest := order[1..];
      UpToAfterSplit(rest, key);
      assert order == [order[0]] + rest;
      if order[0] == key && (forall i, j :: 0 <= i < j < |order| ==> order[i] != order[j]) {
        forall j | 0 <= j < |rest| ensures rest[j] != key {
          assert rest[j] == order[j + 1];
        }
      }
      if order[0] != key && (forall i, j :: 0 <= i < j < |order| ==> order[i] != order[j]) {
        forall i, j | 0 <= i < j < |rest| ensures rest[i] != rest[j] {
          assert rest[i] == order[i + 1] && rest[j] == order[j + 1];
        }
      }
    }
  }

  /** The fields of the merged matching foreign rows, or none when the primary row has no key. */
  function MatchedFields(p: Record, key: string, foreign: seq<Record>): map<string, Value>
  {
    if key in p.fields then Overlay(Matches(foreign, key, p.fields[key])) else map[]
  }

  /** The joined row, as a closed form: the primary row's fields up to the key, then the
      merged matching foreign rows `m`, then the primary row's remaining fields, each
      layer overwriting the one before. */
  function Joined(acc: map<string, Value>, p: Record, order: seq<string>, key: string, m: map<string, Value>): map<string, Value>
    requires forall n :: n in order ==> n in p.fields
  {
    if key in order then ((acc + Pick(p, UpTo(order, key))) + m) + Pick(p, After(order, key))
    else acc + Pick(p, order)
  }

  /** The field loop for one primary row: each field is copied, and when it is the key the
      matching foreign rows are merged in. */
  function JoinFields(acc: Record, p: Record, order: seq<string>, key: string, foreign: seq<Record>): (o: Outcome<Record>)
    requires forall n :: n in order ==> n in p.fields
    ensures key !in order || AllHaveKey(foreign, key) ==> o.Returned?
    decreases |order|
  {
    if |order| == 0 then Returned(acc)
    else
      var n := order[0];
      var acc' := AddField(acc, n, p.fields[n]);
      if n != key then JoinFields(acc', p, order[1..], key, foreign)
      else
        match MergeMatches(acc', foreign, key, p.fields[n])
        case Panicked => Panicked
        case Returned(m) => JoinFields(m, p, order[1..], key, foreign)
  }

  /** Copying one more field first is the same as picking it along with the rest. */
  lemma PickCons(acc: map<string, Value>, p: Record, n: string, ns: seq<string>)
    requires n in p.fields && forall m :: m in ns ==> m in p.fields
    ensures acc[n := p.fields[n]] + Pick(p, ns) == acc + Pick(p, [n] + ns)
  {
    assert acc[n := p.fields[n]] + Pick(p, ns) == acc + Pick(p, [n] + ns);
  }

  /** A field other than the key copied before the rest lands in the closed form as the
      first of the primary row's fields. */
  lemma JoinedCons(acc: map<string, Value>, p: Record, n: string, rest: seq<string>, key: string, m: map<string, Value>)
    requires n != key && n in p.fields
    requires forall x :: x in rest ==> x in p.fields
    ensures Joined(acc[n := p.fields[n]], p, rest, key, m) == Joined(acc, p, [n] + rest, key, m)
  {
    var order := [n] + rest;
    assert order[1..] == rest;
    if key in rest {
      PickCons(acc, p, n, UpTo(rest, key));
      assert UpTo(order, key) == [n] + UpTo(rest, key);
    } else {
      PickCons(acc, p, n, rest);
    }
  }

  /** When the key comes first, the merged foreign fields sit under all the other fields. */
  lemma JoinedKeyFirst(acc: map<string, Value>, p: Record, rest: seq<string>, key: string, m: map<string, Value>)
    requires key in p.fields && key !in rest
    requires forall x :: x in rest ==> x in p.fields
    ensures Joined(acc[key := p.fields[key]] + m, p, rest, key, m) == Joined(acc, p, [key] + rest, key, m)
  {
    var order := [key] + rest;
    assert order[1..] == rest;
    assert UpTo(order, key) == [key] && After(order, key) == rest;
    assert acc + Pick(p, [key]) == acc[key := p.fields[key]];
  }

  /** The tail of a sequence without repeats has none. */
  lemma DistinctTail(order: seq<string>)
    requires |order| > 0
    requires forall i, j :: 0 <= i < j < |order| ==> order[i] != order[j]
    ensures forall i, j :: 0 <= i < j < |order[1..]| ==> order[1..][i] != order[1..][j]
    ensures order[0] !in order[1..]
  {
    var rest := order[1..];
    forall i, j | 0 <= i < j < |rest| ensures rest[i] != rest[j] {
      assert rest[i] == order[i + 1] && rest[j] == order[j + 1];
    }
    forall j | 0 <= j < |rest| ensures rest[j] != order[0] {
      assert rest[j] == order[j + 1];
    }
  }

  /** The field loop panics only when the key is visited and a foreign row lacks it, and
      otherwise builds the closed form. */
  lemma {:induction false} JoinFieldsSpec(acc: Record, p: Record, order: seq<string>, key: string, foreign: seq<Record>)
    requires forall n :: n in order ==> n in p.fields
    requires forall i, j :: 0 <= i < j < |order| ==> order[i] != order[j]
    ensures JoinFields(acc, p, order, key, foreign) ==
      if key in order && !AllHaveKey(foreign, key) then Panicked
      else Returned(Record(Joined(acc.fields, p, order, key, MatchedFields(p, key, foreign))))
    decreases |order|
  {
    var m := MatchedFields(p, key, foreign);
    if |order| == 0 {
      assert acc.fields + Pick(p, order) == acc.fields;
    } else {
      var n := order[0];
      var rest := order[1..];
      assert order == [n] + rest;
      DistinctTail(order);
      var acc' := AddField(acc, n, p.fields[n]);
      if n != key {
        JoinFieldsSpec(acc', p, rest, key, foreign);
        JoinedCons(acc.fields, p, n, rest, key, m);
      } else {
        MergeMatchesSpec(acc', foreign, key, p.fields[key]);
        if AllHaveKey(foreign, key) {
          JoinFieldsSpec(Record(acc'.fields + m), p, rest, key, foreign);
          JoinedKeyFirst(acc.fields, p, rest, key, m);
        }
      }
    }
  }

  /** Joining one primary row, whose hash map yields its fields in `order`. Every record
      has a hash map of its own, with its own random state, so two equal rows may yield
      their fields in different orders: the order belongs to the row, not to its contents.
      Only a row with the key can panic, and only when some foreign row lacks the key. */
  function JoinRecord(p: Record, key: string, foreign: seq<Record>, order: seq<string>): (o: Outcome<Record>)
    requires Enumerates(order, p.fields.Keys)
    ensures key !in p.fields || AllHaveKey(foreign, key) ==> o.Returned?
  {
    JoinFields(NewRecord(), p, order, key, foreign)
  }

  /** Joining a primary row panics only when it has the key and some foreign row lacks it. */
  lemma JoinRecordSpec(p: Record, key: string, foreign: seq<Record>, order: seq<string>)
    requires Enumerates(order, p.fields.Keys)
    ensures JoinRecord(p, key, foreign, order) ==
      if key in p.fields && !AllHaveKey(foreign, key) then Panicked
      else Returned(Record(Joined(map[], p, order, key, MatchedFields(p, key, foreign))))
  {
    JoinFieldsSpec(NewRecord(), p, order, key, foreign);
  }

  /** Every matching foreign row has the key, with the value matched on. */
  lemma MatchesHaveKey(foreign: seq<Record>, key: string, v: Value)
    ensures forall i :: 0 <= i < |Matches(foreign, key, v)| ==>
      key in Matches(foreign, key, v)[i].fields && Matches(foreign, key, v)[i].fields[key] == v
  {
    var ms := Matches(foreign, key, v);
    FilterSpec(foreign, FieldEquals(key, v));
    forall i | 0 <= i < |ms| ensures key in ms[i].fields && ms[i].fields[key] == v {
      assert multiset(ms)[ms[i]] > 0;
    }
  }

  /** A merged field holds the value of some row that has it. */
  lemma {:induction false} OverlayValueFrom(rs: seq<Record>, f: string)
    requires f in Overlay(rs)
    ensures exists i :: 0 <= i < |rs| && f in rs[i].fields && Overlay(rs)[f] == rs[i].fields[f]
    decreases |rs|
  {
    if f in Overlay(rs[1..]) {
      OverlayValueFrom(rs[1..], f);
      var i :| 0 <= i < |rs[1..]| && f in rs[1..][i].fields && Overlay(rs[1..])[f] == rs[1..][i].fields[f];
      assert rs[1..][i] == rs[i + 1];
    } else {
      assert f in rs[0].fields && Overlay(rs)[f] == rs[0].fields[f];
    }
  }

  /** Pointwise reading of the closed form for a primary row that has the key: fields
      after the key keep the primary value, other fields take the merged foreign value
      when there is one. */
  lemma JoinedAt(p: Record, order: seq<string>, key: string, m: map<string, Value>, f: string)
    requires Enumerates(order, p.fields.Keys) && key in order
    ensures var j := Joined(map[], p, order, key, m);
      && (f in j <==> f in p.fields || f in m)
      && (f in After(order, key) ==> j[f] == p.fields[f])
      && (f !in After(order, key) && f in m ==> j[f] == m[f])
      && (f !in After(order, key) && f !in m && f in p.fields ==> j[f] == p.fields[f])
      && key !in After(order, key)
  {
    UpToAfterSplit(order, key);
    assert f in order <==> f in UpTo(order, key) || f in After(order, key);
  }

  /** A primary row without the key is copied unchanged. */
  lemma JoinedRowWithoutKey(p: Record, key: string, foreign: seq<Record>, order: seq<string>)
    requires Enumerates(order, p.fields.Keys)
    requires key !in p.fields
    ensures JoinRecord(p, key, foreign, order) == Returned(p)
  {
    JoinRecordSpec(p, key, foreign, order);
    assert map[] + Pick(p, order) == p.fields;
  }

  /** A primary row with the key joins exactly when every foreign row has the key;
      otherwise the `unwrap` on a foreign row's key panics. */
  lemma JoinedRowPanics(p: Record, key: string, foreign: seq<Record>, order: seq<string>)
    requires Enumerates(order, p.fields.Keys)
    requires key in p.fields
    ensures JoinRecord(p, key, foreign, order).Returned? <==> AllHaveKey(foreign, key)
  {
    JoinRecordSpec(p, key, foreign, order);
  }

  /** The joined row's fields are the primary row's fields together with those of every
      matching foreign row, and its key keeps the primary row's value. */
  lemma JoinedRowKeys(p: Record, key: string, foreign: seq<Record>, order: seq<string>)
    requires Enumerates(order, p.fields.Keys)
    requires key in p.fields && AllHaveKey(foreign, key)
    ensures JoinRecord(p, key, foreign, order).Returned?
    ensures var j := JoinRecord(p, key, foreign, order).value.fields;
      var ms := Matches(foreign, key, p.fields[key]);
      && (forall f :: f in j <==> f in p.fields || exists i :: 0 <= i < |ms| && f in ms[i].fields)
      && key in j && j[key] == p.fields[key]
  {
    JoinRecordSpec(p, key, foreign, order);
    var ms := Matches(foreign, key, p.fields[key]);
    var m := Overlay(ms);
    var j := Joined(map[], p, order, key, m);
    forall f ensures f in j <==> f in p.fields || exists i :: 0 <= i < |ms| && f in ms[i].fields {
      JoinedAt(p, order, key, m, f);
      OverlayKeys(ms, f);
    }
    JoinedAt(p, order, key, m, key);
    if key in m {
      OverlayValueFrom(ms, key);
      MatchesHaveKey(foreign, key, p.fields[key]);
    }
  }

  /** A field only foreign rows supply takes the value of the last matching foreign row
      that has it. */
  lemma JoinedRowForeignOnly(p: Record, key: string, foreign: seq<Record>, order: seq<string>, f: string, i: nat)
    requires Enumerates(order, p.fields.Keys)
    requires key in p.fields && AllHaveKey(foreign, key)
    requires f !in p.fields
    requires var ms := Matches(foreign, key, p.fields[key]);
      && i < |ms| && f in ms[i].fields
      && forall k :: i < k < |ms| ==> f !in ms[k].fields
    ensures JoinRecord(p, key, foreign, order).Returned?
    ensures var j := JoinRecord(p, key, foreign, order).value.fields;
      f in j && j[f] == Matches(foreign, key, p.fields[key])[i].fields[f]
  {
    JoinRecordSpec(p, key, foreign, order);
    var ms := Matches(foreign, key, p.fields[key]);
    JoinedAt(p, order, key, Overlay(ms), f);
    OverlayLastWins(ms, i, f);
  }

  /** A primary field no matching foreign row has keeps the primary value, and a field
      both supply holds one of the two: which one depends on the order the primary
      row's hash map yields its fields in. */
  lemma JoinedRowPrimaryFields(p: Record, key: string, foreign: seq<Record>, order: seq<string>, f: string)
    requires Enumerates(order, p.fields.Keys)
    requires key in p.fields && AllHaveKey(foreign, key)
    requires f in p.fields
    ensures JoinRecord(p, key, foreign, order).Returned?
    ensures var j := JoinRecord(p, key, foreign, order).value.fields;
      var ms := Matches(foreign, key, p.fields[key]);
      && f in j
      && ((forall k :: 0 <= k < |ms| ==> f !in ms[k].fields) ==> j[f] == p.fields[f])
      && (j[f] == p.fields[f] || exists k :: 0 <= k < |ms| && f in ms[k].fields && j[f] == ms[k].fields[f])
  {
    JoinRecordSpec(p, key, foreign, order);
    var ms := Matches(foreign, key, p.fields[key]);
    JoinedAt(p, order, key, Overlay(ms), f);
    OverlayKeys(ms, f);
    if f in Overlay(ms) {
      OverlayValueFrom(ms, f);
    }
  }

  /** One field order per primary row, each listing that row's fields once. */
  predicate RowOrders(rows: seq<Record>, orders: seq<seq<string>>)
  {
    |orders| == |rows| && forall k :: 0 <= k < |rows| ==> Enumerates(orders[k], rows[k].fields.Keys)
  }

  lemma RowOrdersTail(rows: seq<Record>, orders: seq<seq<string>>)
    requires RowOrders(rows, orders) && |rows| > 0
    ensures Enumerates(orders[0], rows[0].fields.Keys)
    ensures RowOrders(rows[1..], orders[1..])
  {
    forall k | 0 <= k < |rows[1..]| ensures Enumerates(orders[1..][k], rows[1..][k].fields.Keys) {
      assert orders[1..][k] == orders[k + 1] && rows[1..][k] == rows[k + 1];
    }
  }

  /** The loop over the primary rows: each row is joined in its own field order, and the
      joined row is added to a generic table; the `unwrap` on that addition panics when a
      row does not fit the schema the first joined row gave it. */
  function JoinRows(rows: seq<Record>, key: string, foreign: seq<Record>, acc: Table, orders: seq<seq<string>>, iter: Iteration): (o: Outcome<Table>)
    requires IsIteration(iter) && RowOrders(rows, orders)
    ensures o.Returned? ==> |o.value.records| == |acc.records| + |rows|
    decreases |rows|
  {
    if |rows| == 0 then Returned(acc)
    else
      RowOrdersTail(rows, orders);
      match JoinRecord(rows[0], key, foreign, orders[0])
      case Panicked => Panicked
      case Returned(j) =>
        var s := Tables.AddRecord(acc, j, iter);
        if s.result.Err? then Panicked else JoinRows(rows[1..], key, foreign, s.state, orders[1..], iter)
  }

  /** `join_tables`: both tables must exist (the primary is looked up first), the foreign
      table must have a schema, and that schema must declare the key. `orders` gives the
      field order of each primary row. */
  function JoinTables(db: DB, primary: string, foreignName: string, key: string, orders: seq<seq<string>>, iter: Iteration): (o: Outcome<Result<Table, DBError>>)
    requires IsIteration(iter)
    requires primary in db.tables ==> RowOrders(db.tables[primary].records, orders)
    ensures primary !in db.tables ==> o == Returned(Err(InvalidTable))
    ensures primary in db.tables && foreignName !in db.tables ==> o == Returned(Err(InvalidTable))
    ensures primary in db.tables && foreignName in db.tables && db.tables[foreignName].fieldTypes.None? ==>
      o == Returned(Err(ForeignTableIsEmpty))
    ensures primary in db.tables && foreignName in db.tables && db.tables[foreignName].fieldTypes.Some? ==>
      (key !in Names(db.tables[foreignName].fieldTypes.value) ==> o == Returned(Err(InvalidForeignKey)))
    ensures o.Returned? && o.value.Ok? ==>
      && primary in db.tables && foreignName in db.tables
      && db.tables[foreignName].fieldTypes.Some?
      && key in Names(db.tables[foreignName].fieldTypes.value)
    ensures o.Returned? && o.value.Err? ==>
      !(&& primary in db.tables && foreignName in db.tables
        && db.tables[foreignName].fieldTypes.Some?
        && key in Names(db.tables[foreignName].fieldTypes.value))
  {
    if primary !in db.tables then Returned(Err(InvalidTable))
    else if foreignName !in db.tables then Returned(Err(InvalidTable))
    else
      match db.tables[foreignName].fieldTypes
      case None => Returned(Err(ForeignTableIsEmpty))
      case Some(fs) =>
        if Lookup(fs, key).None? then Returned(Err(InvalidForeignKey))
        else
          match JoinRows(db.tables[primary].records, key, db.tables[foreignName].records, NewGeneric(), orders, iter)
          case Panicked => Panicked
          case Returned(t) => Returned(Ok(t))
  }

  /** The rows `out[base..]` begin with the joins of `rows`, in order, each joined in its own
      field order. */
  ghost predicate JoinsEach(rows: seq<Record>, key: string, foreign: seq<Record>, orders: seq<seq<string>>, out: seq<Record>, base: nat)
    requires RowOrders(rows, orders)
  {
    && base + |rows| <= |out|
    && forall k :: 0 <= k < |rows| ==> JoinRecord(rows[k], key, foreign, orders[k]) == Returned(out[base + k])
  }

  /** One step of the join loop, re-indexed: the row just joined sits right after the rows
      already present, and the tail's joins follow it. */
  lemma JoinedStep(rows: seq<Record>, key: string, foreign: seq<Record>, orders: seq<seq<string>>, out: seq<Record>, base: nat)
    requires RowOrders(rows, orders) && |rows| > 0 && RowOrders(rows[1..], orders[1..])
    requires base < |out| && JoinRecord(rows[0], key, foreign, orders[0]) == Returned(out[base])
    requires JoinsEach(rows[1..], key, foreign, orders[1..], out, base + 1)
    ensures JoinsEach(rows, key, foreign, orders, out, base)
  {
    forall k | 0 < k < |rows| ensures JoinRecord(rows[k], key, foreign, orders[k]) == Returned(out[base + k]) {
      assert rows[1..][k - 1] == rows[k] && orders[1..][k - 1] == orders[k];
    }
  }

  /** A join loop that returns satisfies the table invariant and has appended one row per
      primary row, leaving the rows already present in place. */
  lemma {:induction false} JoinRowsAppends(rows: seq<Record>, key: string, foreign: seq<Record>, acc: Table, orders: seq<seq<string>>, iter: Iteration)
    requires IsIteration(iter) && RowOrders(rows, orders)
    requires Valid(acc)
    ensures var o := JoinRows(rows, key, foreign, acc, orders, iter);
      o.Returned? ==>
        && Valid(o.value)
        && |o.value.records| == |acc.records| + |rows|
        && (forall k :: 0 <= k < |acc.records| ==> o.value.records[k] == acc.records[k])
    decreases |rows|
  {
    var o := JoinRows(rows, key, foreign, acc, orders, iter);
    if |rows| > 0 && o.Returned? {
      RowOrdersTail(rows, orders);
      var j := JoinRecord(rows[0], key, foreign, orders[0]).value;
      var s := Tables.AddRecord(acc, j, iter);
      assert s.result.Ok? && Valid(s.state);
      assert s.state.records == acc.records + [j];
      assert o == JoinRows(rows[1..], key, foreign, s.state, orders[1..], iter);
      JoinRowsAppends(rows[1..], key, foreign, s.state, orders[1..], iter);
      forall k | 0 <= k < |acc.records| ensures o.value.records[k] == acc.records[k] {
        assert o.value.records[k] == s.state.records[k];
      }
    }
  }

  /** The rows a returning join loop appends are, in order, the joins of the primary rows,
      each in its own field order. */
  lemma {:induction false} JoinRowsJoinsEach(rows: seq<Record>, key: string, foreign: seq<Record>, acc: Table, orders: seq<seq<string>>, iter: Iteration)
    requires IsIteration(iter) && RowOrders(rows, orders)
    requires Valid(acc)
    ensures var o := JoinRows(rows, key, foreign, acc, orders, iter);
      o.Returned? ==>
        && |o.value.records| == |acc.records| + |rows|
        && JoinsEach(rows, key, foreign, orders, o.value.records, |acc.records|)
    decreases |rows|
  {
    var o := JoinRows(rows, key, foreign, acc, orders, iter);
    if |rows| > 0 && o.Returned? {
      RowOrdersTail(rows, orders);
      var j := JoinRecord(rows[0], key, foreign, orders[0]).value;
      var s := Tables.AddRecord(acc, j, iter);
      assert s.result.Ok? && Valid(s.state);
      assert s.state.records == acc.records + [j];
      assert o == JoinRows(rows[1..], key, foreign, s.state, orders[1..], iter);
      JoinRowsJoinsEach(rows[1..], key, foreign, s.state, orders[1..], iter);
      JoinRowsAppends(rows[1..], key, foreign, s.state, orders[1..], iter);
      var out, base := o.value.records, |acc.records|;
      assert |s.state.records| == base + 1;
      assert out[base] == s.state.records[base] == j;
      JoinedStep(rows, key, foreign, orders, out, base);
    }
  }

  /** A join loop that returns leaves a table with a schema as it was, and gives a generic
      one the schema of the first joined row. */
  lemma {:induction false} JoinRowsSchema(rows: seq<Record>, key: string, foreign: seq<Record>, acc: Table, orders: seq<seq<string>>, iter: Iteration)
    requires IsIteration(iter) && RowOrders(rows, orders)
    requires Valid(acc)
    ensures var o := JoinRows(rows, key, foreign, acc, orders, iter);
      o.Returned? ==>
        && (acc.fieldTypes.Some? ==> o.value.fieldTypes == acc.fieldTypes)
        && (acc.fieldTypes.None? && |rows| > 0 ==>
             && |o.value.records| > 0
             && o.value.fieldTypes == Some(Adopt(o.value.records[0], iter(o.value.records[0].fields))))
    decreases |rows|
  {
    var o := JoinRows(rows, key, foreign, acc, orders, iter);
    if |rows| > 0 && o.Returned? {
      RowOrdersTail(rows, orders);
      var j := JoinRecord(rows[0], key, foreign, orders[0]).value;
      var s := Tables.AddRecord(acc, j, iter);
      assert s.result.Ok? && Valid(s.state);
      assert s.state.records == acc.records + [j];
      assert o == JoinRows(rows[1..], key, foreign, s.state, orders[1..], iter);
      JoinRowsSchema(rows[1..], key, foreign, s.state, orders[1..], iter);
      JoinRowsAppends(rows[1..], key, foreign, s.state, orders[1..], iter);
      if acc.fieldTypes.None? {
        assert o.value.records[0] == s.state.records[0] == j;
      }
    }
  }

  /** The join loop returns when every primary row joins and every joined row fits the
      schema the table has, or adopts from the first joined row. */
  lemma {:induction false} JoinRowsReturns(rows: seq<Record>, key: string, foreign: seq<Record>, acc: Table, orders: seq<seq<string>>, iter: Iteration)
    requires IsIteration(iter) && RowOrders(rows, orders)
    requires forall k :: 0 <= k < |rows| ==> JoinRecord(rows[k], key, foreign, orders[k]).Returned?
    requires acc.fieldTypes.Some? ==>
      forall k :: 0 <= k < |rows| ==> Conforms(JoinRecord(rows[k], key, foreign, orders[k]).value, acc.fieldTypes.value)
    requires acc.fieldTypes.None? && |rows| > 0 ==>
      forall k :: 0 <= k < |rows| ==>
        SameShape(JoinRecord(rows[0], key, foreign, orders[0]).value, JoinRecord(rows[k], key, foreign, orders[k]).value)
    ensures JoinRows(rows, key, foreign, acc, orders, iter).Returned?
    decreases |rows|
  {
    if |rows| > 0 {
      RowOrdersTail(rows, orders);
      var rest := rows[1..];
      var restOrders := orders[1..];
      var j := JoinRecord(rows[0], key, foreign, orders[0]).value;
      var s := Tables.AddRecord(acc, j, iter);
      forall k | 0 <= k < |rest| ensures JoinRecord(rest[k], key, foreign, restOrders[k]).Returned? {
        assert rest[k] == rows[k + 1] && restOrders[k] == orders[k + 1];
      }
      if acc.fieldTypes.None? {
        forall k | 0 <= k < |rest|
          ensures Conforms(JoinRecord(rest[k], key, foreign, restOrders[k]).value, s.state.fieldTypes.value)
        {
          assert rest[k] == rows[k + 1] && restOrders[k] == orders[k + 1];
          AdoptedSchemaFits(j, iter(j.fields), JoinRecord(rows[k + 1], key, foreign, orders[k + 1]).value);
        }
      } else {
        assert Conforms(j, acc.fieldTypes.value);
        forall k | 0 <= k < |rest|
          ensures Conforms(JoinRecord(rest[k], key, foreign, restOrders[k]).value, s.state.fieldTypes.value)
        {
          assert rest[k] == rows[k + 1] && restOrders[k] == orders[k + 1];
        }
      }
      JoinRowsReturns(rest, key, foreign, s.state, restOrders, iter);
    }
  }

  /** A successful join has exactly one row per primary row, in primary order, each the
      join of that primary row in its own field order, and the result keeps the table
      invariant. */
  lemma JoinTablesRows(db: DB, primary: string, foreignName: string, key: string, orders: seq<seq<string>>, iter: Iteration)
    requires IsIteration(iter)
    requires primary in db.tables ==> RowOrders(db.tables[primary].records, orders)
    ensures var o := JoinTables(db, primary, foreignName, key, orders, iter);
      o.Returned? && o.value.Ok? ==>
        var p := db.tables[primary];
        var t := o.value.value;
        && RecordCnt(t) == RecordCnt(p)
        && Valid(t)
        && forall k :: 0 <= k < RecordCnt(p) ==>
             JoinRecord(p.records[k], key, db.tables[foreignName].records, orders[k]) == Returned(t.records[k])
  {
    var o := JoinTables(db, primary, foreignName, key, orders, iter);
    if o.Returned? && o.value.Ok? {
      JoinRowsAppends(db.tables[primary].records, key, db.tables[foreignName].records, NewGeneric(), orders, iter);
      JoinRowsJoinsEach(db.tables[primary].records, key, db.tables[foreignName].records, NewGeneric(), orders, iter);
    }
  }

  /** In a valid database every foreign row has a key its schema declares, so the lookup
      `unwrap` in the foreign scan never panics. */
  lemma ForeignRowsHaveKey(db: DB, foreignName: string, key: string)
    requires ValidDB(db) && foreignName in db.tables
    requires key in Names(db.tables[foreignName].fieldTypes.value)
    ensures AllHaveKey(db.tables[foreignName].records, key)
  {
    var t := db.tables[foreignName];
    var s := t.fieldTypes.value;
    forall k | 0 <= k < |t.records| ensures key in t.records[k].fields {
      SchemaTypeOfField(t.records[k], s, key, Lookup(s, key).value);
    }
  }

  /** In a valid database with a declared key, the join panics or returns according to one
      condition: it returns exactly when every joined row, each joined in its own row's
      field order, has the first joined row's shape. */
  lemma JoinTablesReturnsIff(db: DB, primary: string, foreignName: string, key: string, orders: seq<seq<string>>, iter: Iteration)
    requires IsIteration(iter)
    requires ValidDB(db) && primary in db.tables && foreignName in db.tables
    requires RowOrders(db.tables[primary].records, orders)
    requires key in Names(db.tables[foreignName].fieldTypes.value)
    ensures var rows := db.tables[primary].records;
      var foreign := db.tables[foreignName].records;
      && (forall k :: 0 <= k < |rows| ==> JoinRecord(rows[k], key, foreign, orders[k]).Returned?)
      && (JoinTables(db, primary, foreignName, key, orders, iter).Returned? ==> JoinTables(db, primary, foreignName, key, orders, iter).value.Ok?)
      && (JoinTables(db, primary, foreignName, key, orders, iter).Returned? <==>
           forall k :: 0 <= k < |rows| ==>
             SameShape(JoinRecord(rows[0], key, foreign, orders[0]).value, JoinRecord(rows[k], key, foreign, orders[k]).value))
  {
    var rows := db.tables[primary].records;
    var foreign := db.tables[foreignName].records;
    ForeignRowsHaveKey(db, foreignName, key);
    forall k | 0 <= k < |rows| ensures JoinRecord(rows[k], key, foreign, orders[k]).Returned? {
      if key in rows[k].fields {
        JoinedRowPanics(rows[k], key, foreign, orders[k]);
      } else {
        JoinedRowWithoutKey(rows[k], key, foreign, orders[k]);
      }
    }
    var o := JoinRows(rows, key, foreign, NewGeneric(), orders, iter);
    if o.Returned? {
      JoinRowsAppends(rows, key, foreign, NewGeneric(), orders, iter);
      JoinRowsJoinsEach(rows, key, foreign, NewGeneric(), orders, iter);
      JoinRowsSchema(rows, key, foreign, NewGeneric(), orders, iter);
      if |rows| > 0 {
        var out := o.value.records;
        forall k | 0 <= k < |rows|
          ensures SameShape(JoinRecord(rows[0], key, foreign, orders[0]).value, JoinRecord(rows[k], key, foreign, orders[k]).value)
        {
          assert Conforms(out[k], o.value.fieldTypes.value);
          AdoptedSchemaFits(out[0], iter(out[0].fields), out[k]);
        }
      }
    } else if forall k :: 0 <= k < |rows| ==>
        SameShape(JoinRecord(rows[0], key, foreign, orders[0]).value, JoinRecord(rows[k], key, foreign, orders[k]).value) {
      JoinRowsReturns(rows, key, foreign, NewGeneric(), orders, iter);
    }
  }

  /** A foreign row the key test keeps is one of the matches. */
  lemma MatchesInclude(foreign: seq<Record>, key: string, i: nat)
    requires i < |foreign| && key in foreign[i].fields
    ensures var ms := Matches(foreign, key, foreign[i].fields[key]);
      exists k :: 0 <= k < |ms| && ms[k] == foreign[i]
  {
    var v := foreign[i].fields[key];
    FilterSpec(foreign, FieldEquals(key, v));
    assert foreign[i] in multiset(Matches(foreign, key, v));
  }

  /** Without a foreign row whose key equals `v` there are no matches. */
  lemma NoMatches(foreign: seq<Record>, key: string, v: Value)
    requires forall k :: 0 <= k < |foreign| && key in foreign[k].fields ==> foreign[k].fields[key] != v
    ensures |Matches(foreign, key, v)| == 0
  {
    var ms := Matches(foreign, key, v);
    FilterSpec(foreign, FieldEquals(key, v));
    forall r ensures multiset(ms)[r] == 0 {
      if r in foreign {
        var k :| 0 <= k < |foreign| && foreign[k] == r;
      }
    }
    assert multiset(ms) == multiset{};
  }

  /** The `unwrap` after the join loop panics when a primary row gets a foreign field from
      its match and the next primary row, which lacks that field, has no match. */
  lemma JoinPanicsOnUnmatchedAfterMatched(db: DB, primary: string, foreignName: string, key: string, orders: seq<seq<string>>, iter: Iteration, i: nat, g: string)
    requires IsIteration(iter)
    requires ValidDB(db) && primary in db.tables && foreignName in db.tables
    requires RowOrders(db.tables[primary].records, orders)
    requires key in Names(db.tables[foreignName].fieldTypes.value)
    requires var rows := db.tables[primary].records;
      var foreign := db.tables[foreignName].records;
      && |rows| >= 2 && key in rows[0].fields && key in rows[1].fields
      && i < |foreign| && key in foreign[i].fields && foreign[i].fields[key] == rows[0].fields[key]
      && g in foreign[i].fields && g !in rows[1].fields
      && forall k :: 0 <= k < |foreign| && key in foreign[k].fields ==> foreign[k].fields[key] != rows[1].fields[key]
    ensures JoinTables(db, primary, foreignName, key, orders, iter).Panicked?
  {
    var rows := db.tables[primary].records;
    var foreign := db.tables[foreignName].records;
    ForeignRowsHaveKey(db, foreignName, key);
    JoinTablesReturnsIff(db, primary, foreignName, key, orders, iter);
    MatchesInclude(foreign, key, i);
    JoinedRowKeys(rows[0], key, foreign, orders[0]);
    NoMatches(foreign, key, rows[1].fields[key]);
    JoinedRowKeys(rows[1], key, foreign, orders[1]);
    var j0 := JoinRecord(rows[0], key, foreign, orders[0]).value;
    var j1 := JoinRecord(rows[1], key, foreign, orders[1]).value;
    assert g in j0.fields && g !in j1.fields;
    assert !SameShape(j0, j1);
  }

  /** The field order decides a field the primary row shares with its one match: visited
      after the key, the primary value overwrites the merged foreign one; visited before
      it, the foreign value overwrites the primary one. */
  lemma JoinedRowOrderDecides(p: Record, key: string, foreign: seq<Record>, m: Record, f: string)
    requires key in p.fields && AllHaveKey(foreign, key)
    requires Matches(foreign, key, p.fields[key]) == [m]
    requires f != key && p.fields.Keys == {key, f} && f in m.fields
    ensures Enumerates([key, f], p.fields.Keys) && Enumerates([f, key], p.fields.Keys)
    ensures JoinRecord(p, key, foreign, [key, f]).Returned?
    ensures f in JoinRecord(p, key, foreign, [key, f]).value.fields
    ensures JoinRecord(p, key, foreign, [key, f]).value.fields[f] == p.fields[f]
    ensures JoinRecord(p, key, foreign, [f, key]).Returned?
    ensures f in JoinRecord(p, key, foreign, [f, key]).value.fields
    ensures JoinRecord(p, key, foreign, [f, key]).value.fields[f] == m.fields[f]
  {
    assert Enumerates([key, f], p.fields.Keys) && Enumerates([f, key], p.fields.Keys);
    assert Overlay([m]) == m.fields by {
      assert [m][1..] == [];
      assert m.fields + map[] == m.fields;
    }
    JoinRecordSpec(p, key, foreign, [key, f]);
    assert After([key, f], key) == [f];
    JoinedAt(p, [key, f], key, m.fields, f);
    JoinRecordSpec(p, key, foreign, [f, key]);
    assert After([f, key], key) == [];
    JoinedAt(p, [f, key], key, m.fields, f);
  }

  /** Two equal primary rows can make the join panic: when the row's one match holds a
      field of the row with another type, the row visited key-first keeps the primary type
      and the row visited key-last takes the foreign one, so the second joined row does
      not fit the schema the first gave the result. Visited in the same order, the two
      rows join alike and the join returns. */
  lemma JoinEqualRowsVisitedDifferently(db: DB, primary: string, foreignName: string, key: string, iter: Iteration, m: Record, f: string)
    requires IsIteration(iter)
    requires ValidDB(db) && primary in db.tables && foreignName in db.tables
    requires key in Names(db.tables[foreignName].fieldTypes.value)
    requires var rows := db.tables[primary].records;
      && |rows| == 2 && rows[0] == rows[1]
      && f != key && rows[0].fields.Keys == {key, f}
      && Matches(db.tables[foreignName].records, key, rows[0].fields[key]) == [m]
      && f in m.fields && ToType(m.fields[f]) != ToType(rows[0].fields[f])
    ensures RowOrders(db.tables[primary].records, [[key, f], [f, key]])
    ensures JoinTables(db, primary, foreignName, key, [[key, f], [f, key]], iter).Panicked?
    ensures RowOrders(db.tables[primary].records, [[key, f], [key, f]])
    ensures JoinTables(db, primary, foreignName, key, [[key, f], [key, f]], iter).Returned?
  {
    var rows := db.tables[primary].records;
    var foreign := db.tables[foreignName].records;
    var p := rows[0];
    ForeignRowsHaveKey(db, foreignName, key);
    JoinedRowOrderDecides(p, key, foreign, m, f);
    var mixed := [[key, f], [f, key]];
    var same := [[key, f], [key, f]];
    assert RowOrders(rows, mixed) && RowOrders(rows, same);
    JoinTablesReturnsIff(db, primary, foreignName, key, mixed, iter);
    var j0 := JoinRecord(p, key, foreign, [key, f]).value;
    var j1 := JoinRecord(p, key, foreign, [f, key]).value;
    assert !SameShape(j0, j1);
    JoinTablesReturnsIff(db, primary, foreignName, key, same, iter);
    assert SameShape(j0, j0);
  }

  // ---- A worked join ----

  /** A row of the primary table in the worked example: an id and a name. */
  function Person(id: U32, name: string): Record
  {
    Record(map["ID" := Value.UInt(id), "name" := Value.Str(name)])
  }

  /** A row of the foreign table in the worked example: an id and an age. */
  function Age(id: U32, age: U32): Record
  {
    Record(map["ID" := Value.UInt(id), "age" := Value.UInt(age)])
  }

  /** The joined row the worked example expects. */
  function PersonWithAge(id: U32, name: string, age: U32): Record
  {
    Record(map["ID" := Value.UInt(id), "name" := Value.Str(name), "age" := Value.UInt(age)])
  }

  /** A primary row with exactly one match that shares only the key with it joins to the
      union of the two rows, whatever order the primary row's fields are visited in. */
  lemma JoinSingleMatch(p: Record, key: string, foreign: seq<Record>, order: seq<string>, m: Record)
    requires Enumerates(order, p.fields.Keys)
    requires key in p.fields && AllHaveKey(foreign, key)
    requires |Matches(foreign, key, p.fields[key])| == 1 && Matches(foreign, key, p.fields[key])[0] == m
    requires forall f :: f in p.fields && f in m.fields ==> f == key
    ensures JoinRecord(p, key, foreign, order) == Returned(Record(p.fields + m.fields))
  {
    SingleMatchKeys(p, key, foreign, order, m);
    var j := JoinRecord(p, key, foreign, order).value.fields;
    SingleMatchValues(p, key, foreign, order, m);
    MapsAgree(j, p.fields + m.fields);
  }

  /** Two maps with the same keys and the same value at each key are equal. */
  lemma MapsAgree<K, V>(a: map<K, V>, b: map<K, V>)
    requires forall k :: k in a <==> k in b
    requires forall k :: k in b ==> a[k] == b[k]
    ensures a == b
  {
  }

  lemma SingleMatchValues(p: Record, key: string, foreign: seq<Record>, order: seq<string>, m: Record)
    requires Enumerates(order, p.fields.Keys)
    requires key in p.fields && AllHaveKey(foreign, key)
    requires |Matches(foreign, key, p.fields[key])| == 1 && Matches(foreign, key, p.fields[key])[0] == m
    requires forall f :: f in p.fields && f in m.fields ==> f == key
    ensures JoinRecord(p, key, foreign, order).Returned?
    ensures forall f :: f in p.fields + m.fields ==>
      f in JoinRecord(p, key, foreign, order).value.fields &&
      JoinRecord(p, key, foreign, order).value.fields[f] == (p.fields + m.fields)[f]
  {
    SingleMatchValue(p, key, foreign, order, m, key);
    forall f | f in p.fields + m.fields
      ensures f in JoinRecord(p, key, foreign, order).value.fields
      ensures JoinRecord(p, key, foreign, order).value.fields[f] == (p.fields + m.fields)[f]
    {
      SingleMatchValue(p, key, foreign, order, m, f);
    }
  }

  lemma SingleMatchKeys(p: Record, key: string, foreign: seq<Record>, order: seq<string>, m: Record)
    requires Enumerates(order, p.fields.Keys)
    requires key in p.fields && AllHaveKey(foreign, key)
    requires |Matches(foreign, key, p.fields[key])| == 1 && Matches(foreign, key, p.fields[key])[0] == m
    ensures JoinRecord(p, key, foreign, order).Returned?
    ensures JoinRecord(p, key, foreign, order).value.fields.Keys == p.fields.Keys + m.fields.Keys
  {
    var ms := Matches(foreign, key, p.fields[key]);
    JoinedRowKeys(p, key, foreign, order);
    var j := JoinRecord(p, key, foreign, order).value.fields;
    assert |ms| == 1 && ms[0] == m;
    forall f | f in p.fields || f in m.fields ensures f in j {
      if f in m.fields {
        assert 0 <= 0 < |ms| && f in ms[0].fields;
      }
    }
    forall f | f in j ensures f in p.fields || f in m.fields {
      if f !in p.fields {
        var i :| 0 <= i < |ms| && f in ms[i].fields;
        assert i == 0;
      }
    }
    assert j.Keys == p.fields.Keys + m.fields.Keys;
  }

  lemma SingleMatchValue(p: Record, key: string, foreign: seq<Record>, order: seq<string>, m: Record, f: string)
    requires Enumerates(order, p.fields.Keys)
    requires key in p.fields && AllHaveKey(foreign, key)
    requires |Matches(foreign, key, p.fields[key])| == 1 && Matches(foreign, key, p.fields[key])[0] == m
    requires forall f :: f in p.fields && f in m.fields ==> f == key
    requires f in p.fields || f in m.fields
    ensures JoinRecord(p, key, foreign, order).Returned?
    ensures var j := JoinRecord(p, key, foreign, order).value.fields;
      f in j && j[f] == (p.fields + m.fields)[f]
  {
    var ms := Matches(foreign, key, p.fields[key]);

    if f == key {
      JoinedRowKeys(p, key, foreign, order);
      MatchesHaveKey(foreign, key, p.fields[key]);
      assert key in m.fields ==> m.fields[key] == p.fields[key];
    } else if f in p.fields {
      assert f !in m.fields;
      forall k | 0 <= k < |ms| ensures f !in ms[k].fields {
        assert k == 0;
      }
      JoinedRowPrimaryFields(p, key, foreign, order, f);
    } else {
      JoinedRowForeignOnly(p, key, foreign, order, f, 0);
    }
  }

  /** A person row with exactly one matching age row joins to the person with that age. */
  lemma JoinOneMatch(id: U32, name: string, age: U32, foreign: seq<Record>, order: seq<string>)
    requires Enumerates(order, Person(id, name).fields.Keys)
    requires AllHaveKey(foreign, "ID")
    requires Matches(foreign, "ID", Value.UInt(id)) == [Age(id, age)]
    ensures JoinRecord(Person(id, name), "ID", foreign, order) == Returned(PersonWithAge(id, name, age))
  {
    var ms := Matches(foreign, "ID", Value.UInt(id));
    assert |ms| == 1 && ms[0] == Age(id, age);
    PersonAgeUnion(id, name, age);
    JoinSingleMatch(Person(id, name), "ID", foreign, order, Age(id, age));
  }

  /** A person row and an age row share only the id, and together make the joined row. */
  lemma PersonAgeUnion(id: U32, name: string, age: U32)
    ensures forall f :: f in Person(id, name).fields && f in Age(id, age).fields ==> f == "ID"
    ensures Person(id, name).fields + Age(id, age).fields == PersonWithAge(id, name, age).fields
  {
    var u := Person(id, name).fields + Age(id, age).fields;
    MapsAgree(u, PersonWithAge(id, name, age).fields);
  }

  /** The worked example's database, built as `main` builds it: the name table declared
      with `field_types!` and filled with `record!` rows through the database, then the
      age table likewise. */
  function ExampleDB(iter: Iteration): DB
    requires IsIteration(iter)
  {
    assert TypeTag("uint") == Some(ValueType.UInt) && TypeTag("str") == Some(ValueType.Str);
    var names := FieldTypes([("ID", "uint"), ("name", "str")]);
    var ages := FieldTypes([("ID", "uint"), ("age", "uint")]);
    var db0 := AddTable(NewDB(), "name table", names);
    var db1 := AddRecords(db0, "name table",
      [RecordOf([("ID", Value.UInt(0)), ("name", Value.Str("nick"))]),
       RecordOf([("ID", Value.UInt(1)), ("name", Value.Str("james"))])], iter).state;
    var db2 := AddTable(db1, "age table", ages);
    AddRecords(db2, "age table",
      [RecordOf([("ID", Value.UInt(0)), ("age", Value.UInt(15))]),
       RecordOf([("age", Value.UInt(45)), ("ID", Value.UInt(1))])], iter).state
  }

  /** The two `field_types!` schemas of the worked example, entry by entry. */
  lemma ExampleSchemas()
    ensures FieldTypes([("ID", "uint"), ("name", "str")]) == [Field("ID", ValueType.UInt), Field("name", ValueType.Str)]
    ensures FieldTypes([("ID", "uint"), ("age", "uint")]) == [Field("ID", ValueType.UInt), Field("age", ValueType.UInt)]
  {
    FieldTypesTwo(("ID", "uint"), ("name", "str"));
    FieldTypesTwo(("ID", "uint"), ("age", "uint"));
  }

  /** `field_types!` with two distinct names: both entries, in the order given. */
  lemma FieldTypesTwo(a: (string, string), b: (string, string))
    requires TypeTag(a.1).Some? && TypeTag(b.1).Some? && a.0 != b.0
    ensures FieldTypes([a, b]) == [Field(a.0, TypeTag(a.1).value), Field(b.0, TypeTag(b.1).value)]
  {
    assert [a, b][..1] == [a];
    assert [a][..0] == [];
    var s := [Field(a.0, TypeTag(a.1).value)];
    assert FieldTypes([a]) == s;
    assert SchemaInsert(s, b.0, TypeTag(b.1).value) == [s[0]] + SchemaInsert(s[1..], b.0, TypeTag(b.1).value);
  }

  /** The `record!` rows of the worked example are the person and age rows, whatever
      order their fields are given in. */
  lemma ExampleRecords(id: U32, name: string, age: U32)
    ensures RecordOf([("ID", Value.UInt(id)), ("name", Value.Str(name))]) == Person(id, name)
    ensures RecordOf([("ID", Value.UInt(id)), ("age", Value.UInt(age))]) == Age(id, age)
    ensures RecordOf([("age", Value.UInt(age)), ("ID", Value.UInt(id))]) == Age(id, age)
  {
    RecordOfTwo(("ID", Value.UInt(id)), ("name", Value.Str(name)));
    RecordOfTwo(("ID", Value.UInt(id)), ("age", Value.UInt(age)));
    RecordOfTwo(("age", Value.UInt(age)), ("ID", Value.UInt(id)));
  }

  /** `record!` with two pairs: the first field inserted, then the second. */
  lemma RecordOfTwo(a: (string, Value), b: (string, Value))
    ensures RecordOf([a, b]).fields == map[a.0 := a.1][b.0 := b.1]
  {
    assert [a, b][..1] == [a];
    assert [a][..0] == [];
    assert RecordOf([a]) == AddField(NewRecord(), a.0, a.1);
    assert RecordOf([a, b]) == AddField(RecordOf([a]), b.0, b.1);
  }

  /** The worked example's database with the macros evaluated. */
  lemma ExampleDBLiteral(iter: Iteration)
    requires IsIteration(iter)
    ensures var names := [Field("ID", ValueType.UInt), Field("name", ValueType.Str)];
      var ages := [Field("ID", ValueType.UInt), Field("age", ValueType.UInt)];
      var db0 := AddTable(NewDB(), "name table", names);
      var db1 := AddRecords(db0, "name table", [Person(0, "nick"), Person(1, "james")], iter).state;
      var db2 := AddTable(db1, "age table", ages);
      ExampleDB(iter) == AddRecords(db2, "age table", [Age(0, 15), Age(1, 45)], iter).state
  {
    ExampleSchemas();
    ExampleRecords(0, "nick", 15);
    ExampleRecords(1, "james", 45);
  }

  /** Both insertions of the worked example succeed, so each table holds its two rows. */
  lemma ExampleDBTables(iter: Iteration)
    requires IsIteration(iter)
    ensures ValidDB(ExampleDB(iter))
    ensures "name table" in ExampleDB(iter).tables && "age table" in ExampleDB(iter).tables
    ensures ExampleDB(iter).tables["name table"].records == [Person(0, "nick"), Person(1, "james")]
    ensures ExampleDB(iter).tables["age table"] ==
      Table(Some([Field("ID", ValueType.UInt), Field("age", ValueType.UInt)]), [Age(0, 15), Age(1, 45)])
  {
    ExampleDBLiteral(iter);
    var names := [Field("ID", ValueType.UInt), Field("name", ValueType.Str)];
    var ages := [Field("ID", ValueType.UInt), Field("age", ValueType.UInt)];
    var db0 := AddTable(NewDB(), "name table", names);
    PersonConforms(0, "nick");
    PersonConforms(1, "james");
    FillTwo(db0, "name table", names, [Person(0, "nick"), Person(1, "james")], iter);
    var db1 := AddRecords(db0, "name table", [Person(0, "nick"), Person(1, "james")], iter).state;
    var db2 := AddTable(db1, "age table", ages);
    AgeConforms(0, 15);
    AgeConforms(1, 45);
    FillTwo(db2, "age table", ages, [Age(0, 15), Age(1, 45)], iter);
  }

  lemma PersonConforms(id: U32, name: string)
    ensures Conforms(Person(id, name), [Field("ID", ValueType.UInt), Field("name", ValueType.Str)])
  {
  }

  lemma AgeConforms(id: U32, age: U32)
    ensures Conforms(Age(id, age), [Field("ID", ValueType.UInt), Field("age", ValueType.UInt)])
  {
  }

  /** Two records that fit a new table's schema, inserted through the database, fill that
      table and leave the others alone. */
  lemma FillTwo(db: DB, name: string, s: Schema, recs: seq<Record>, iter: Iteration)
    requires IsIteration(iter) && DistinctNames(s)
    requires GetTable(db, name) == Some(New(s))
    requires |recs| == 2 && Conforms(recs[0], s) && Conforms(recs[1], s)
    ensures var d := AddRecords(db, name, recs, iter).state;
      && GetTable(d, name) == Some(Table(Some(s), recs))
      && forall n :: n != name ==> GetTable(d, n) == GetTable(db, n)
  {
    AppendTwo(New(s), recs, iter);
  }

  /** The join of the worked example's two tables: names (0, "nick") and (1, "james")
      joined on "ID" with ages (0, 15) and (1, 45) give each person their age, in the
      name table's order, whatever order each name row yields its fields in. */
  lemma JoinExampleTables(db: DB, orders: seq<seq<string>>, iter: Iteration)
    requires IsIteration(iter)
    requires ValidDB(db) && "name table" in db.tables && "age table" in db.tables
    requires db.tables["name table"].records == [Person(0, "nick"), Person(1, "james")]
    requires db.tables["age table"] ==
      Table(Some([Field("ID", ValueType.UInt), Field("age", ValueType.UInt)]), [Age(0, 15), Age(1, 45)])
    requires RowOrders(db.tables["name table"].records, orders)
    ensures var o := JoinTables(db, "name table", "age table", "ID", orders, iter);
      && o.Returned? && o.value.Ok?
      && o.value.value.records == [PersonWithAge(0, "nick", 15), PersonWithAge(1, "james", 45)]
  {
    ExampleRowsJoin(orders[0], orders[1]);
    assert SameShape(PersonWithAge(0, "nick", 15), PersonWithAge(1, "james", 45));
    assert db.tables["age table"].fieldTypes.value[0].name == "ID";
    JoinTwoRows(db, "name table", "age table", "ID", orders, iter, PersonWithAge(0, "nick", 15), PersonWithAge(1, "james", 45));
  }

  /** A two-row primary table whose rows join to rows of the same shape joins to exactly
      those two rows. */
  lemma JoinTwoRows(db: DB, primary: string, foreignName: string, key: string, orders: seq<seq<string>>, iter: Iteration, j0: Record, j1: Record)
    requires IsIteration(iter)
    requires ValidDB(db) && primary in db.tables && foreignName in db.tables
    requires RowOrders(db.tables[primary].records, orders)
    requires key in Names(db.tables[foreignName].fieldTypes.value)
    requires var rows := db.tables[primary].records;
      var foreign := db.tables[foreignName].records;
      && |rows| == 2
      && JoinRecord(rows[0], key, foreign, orders[0]) == Returned(j0)
      && JoinRecord(rows[1], key, foreign, orders[1]) == Returned(j1)
    requires SameShape(j0, j1)
    ensures var o := JoinTables(db, primary, foreignName, key, orders, iter);
      o.Returned? && o.value.Ok? && o.value.value.records == [j0, j1]
  {
    JoinTwoRowsReturns(db, primary, foreignName, key, orders, iter, j0, j1);
    JoinTablesRows(db, primary, foreignName, key, orders, iter);
    var t := JoinTables(db, primary, foreignName, key, orders, iter).value.value;
    assert t.records[0] == j0 && t.records[1] == j1;
  }

  lemma JoinTwoRowsReturns(db: DB, primary: string, foreignName: string, key: string, orders: seq<seq<string>>, iter: Iteration, j0: Record, j1: Record)
    requires IsIteration(iter)
    requires ValidDB(db) && primary in db.tables && foreignName in db.tables
    requires RowOrders(db.tables[primary].records, orders)
    requires key in Names(db.tables[foreignName].fieldTypes.value)
    requires var rows := db.tables[primary].records;
      var foreign := db.tables[foreignName].records;
      && |rows| == 2
      && JoinRecord(rows[0], key, foreign, orders[0]) == Returned(j0)
      && JoinRecord(rows[1], key, foreign, orders[1]) == Returned(j1)
    requires SameShape(j0, j1)
    ensures var o := JoinTables(db, primary, foreignName, key, orders, iter);
      o.Returned? && o.value.Ok?
  {
    TwoRowsSameShape(db.tables[primary].records, key, db.tables[foreignName].records, orders, j0, j1);
    JoinTablesReturnsIff(db, primary, foreignName, key, orders, iter);
  }

  lemma TwoRowsSameShape(rows: seq<Record>, key: string, foreign: seq<Record>, orders: seq<seq<string>>, j0: Record, j1: Record)
    requires RowOrders(rows, orders) && |rows| == 2
    requires JoinRecord(rows[0], key, foreign, orders[0]) == Returned(j0)
    requires JoinRecord(rows[1], key, foreign, orders[1]) == Returned(j1)
    requires SameShape(j0, j1)
    ensures forall k :: 0 <= k < |rows| ==>
      SameShape(JoinRecord(rows[0], key, foreign, orders[0]).value, JoinRecord(rows[k], key, foreign, orders[k]).value)
  {
    forall k | 0 <= k < |rows|
      ensures SameShape(JoinRecord(rows[0], key, foreign, orders[0]).value, JoinRecord(rows[k], key, foreign, orders[k]).value)
    {
      if k == 1 { } else { assert SameShape(j0, j0); }
    }
  }

  /** Each person of the worked example meets exactly their own age row, whatever order
      the person row yields its fields in. */
  lemma ExampleRowsJoin(o0: seq<string>, o1: seq<string>)
    requires Enumerates(o0, Person(0, "nick").fields.Keys)
    requires Enumerates(o1, Person(1, "james").fields.Keys)
    ensures JoinRecord(Person(0, "nick"), "ID", [Age(0, 15), Age(1, 45)], o0) == Returned(PersonWithAge(0, "nick", 15))
    ensures JoinRecord(Person(1, "james"), "ID", [Age(0, 15), Age(1, 45)], o1) == Returned(PersonWithAge(1, "james", 45))
  {
    var foreign := [Age(0, 15), Age(1, 45)];
    assert AllHaveKey(foreign, "ID");
    assert Matches(foreign, "ID", Value.UInt(0)) == [Age(0, 15)];
    assert Matches(foreign, "ID", Value.UInt(1)) == [Age(1, 45)];
    JoinOneMatch(0, "nick", 15, foreign, o0);
    JoinOneMatch(1, "james", 45, foreign, o1);
  }

  /** The worked example from an empty database: create and fill both tables, then join,
      for every field order of the two name rows. */
  lemma JoinExample(orders: seq<seq<string>>, iter: Iteration)
    requires IsIteration(iter)
    requires RowOrders([Person(0, "nick"), Person(1, "james")], orders)
    ensures "name table" in ExampleDB(iter).tables
    ensures ExampleDB(iter).tables["name table"].records == [Person(0, "nick"), Person(1, "james")]
    ensures var o := JoinTables(ExampleDB(iter), "name table", "age table", "ID", orders, iter);
      && o.Returned? && o.value.Ok?
      && o.value.value.records == [PersonWithAge(0, "nick", 15), PersonWithAge(1, "james", 45)]
  {
    ExampleDBTables(iter);
    JoinExampleTables(ExampleDB(iter), orders, iter);
  }

  /** Two records that fit an empty table's schema are both appended. */
  lemma AppendTwo(t: Table, recs: seq<Record>, iter: Iteration)
    requires t.fieldTypes.Some? && |t.records| == 0 && |recs| == 2
    requires Conforms(recs[0], t.fieldTypes.value) && Conforms(recs[1], t.fieldTypes.value)
    ensures Tables.AddRecords(t, recs, iter) == Step(Table(t.fieldTypes, recs), Ok(()))
  {
    AddFittingRecord(t, recs[0], iter);
    assert t.records + [recs[0]] == [recs[0]];
    var t1 := Table(t.fieldTypes, [recs[0]]);
    AddFittingRecord(t1, recs[1], iter);
    var t2 := Table(t.fieldTypes, [recs[0]] + [recs[1]]);
    assert Tables.AddRecords(t, recs, iter) == Tables.AddRecords(t1, recs[1..], iter);
    assert Tables.AddRecords(t1, recs[1..], iter) == Tables.AddRecords(t2, recs[1..][1..], iter);
    assert [recs[0]] + [recs[1]] == recs;
  }
}

=== FILE: errors.dfy ===
/** The error kinds of `src/table.rs`, shared by values, records and tables. */
module Errors {

  datatype TableError =
    | MismatchedTypes
    | InvalidField
    | InvalidOperator
    | IncorrectFieldNames
    | IncorrectFieldTypes
    | TableHasNoFields
}

=== FILE: ordering.dfy ===
/** `Operator` and `create_comp_func` (`src/table.rs`): the native ordering of the
    three orderable variants (`&str`, `i32`, `u32`; `f32` is not `Ord`). */
module Ordering {
  import opened Values

  datatype Operator = GreaterThan | EqualTo | LessThan

  /** Rust's `<` on `&str`: lexicographic on the characters. Comparing the UTF-8 bytes,
      as Rust does, orders strings the same way as comparing their code points. */
  function StrLess(a: string, b: string): (r: bool)
    ensures a == b ==> !r
    decreases |a|
  {
    if |a| == 0 then |b| > 0
    else if |b| == 0 then false
    else if a[0] != b[0] then a[0] < b[0]
    else StrLess(a[1..], b[1..])
  }

  /** Two values that `create_comp_func::<T>` can compare: the same variant, and an `Ord` one. */
  predicate Comparable(a: Value, b: Value)
  {
    ToType(a) == ToType(b) && ToType(a) != ValueType.Float
  }

  predicate Less(a: Value, b: Value)
    requires Comparable(a, b)
  {
    match (a, b)
    case (Str(x), Str(y)) => StrLess(x, y)
    case (Int(x), Int(y)) => x < y
    case (UInt(x), UInt(y)) => x < y
    case _ => false
  }

  /** `create_comp_func(op)(a, b)`: `EqualTo` is equality, and the other two operators
      are strict, never holding of equal values. */
  function Compare(op: Operator, a: Value, b: Value): (r: bool)
    requires Comparable(a, b)
    ensures op == EqualTo ==> (r <==> a == b)
    ensures op != EqualTo && r ==> a != b
    ensures a.Int? && op == LessThan ==> (r <==> a.i32 < b.i32)
    ensures a.Int? && op == GreaterThan ==> (r <==> a.i32 > b.i32)
    ensures a.UInt? && op == LessThan ==> (r <==> a.u32 < b.u32)
    ensures a.UInt? && op == GreaterThan ==> (r <==> a.u32 > b.u32)
    ensures a.Str? && op == LessThan ==> (r <==> StrLess(a.text, b.text))
    ensures a.Str? && op == GreaterThan ==> (r <==> StrLess(b.text, a.text))
  {
    match op
    case GreaterThan => Less(b, a)
    case EqualTo => a == b
    case LessThan => Less(a, b)
  }

  lemma {:induction false} StrLessTrichotomy(a: string, b: string)
    ensures StrLess(a, b) || a == b || StrLess(b, a)
    ensures !(StrLess(a, b) && a == b)
    ensures !(StrLess(a, b) && StrLess(b, a))
    decreases |a|
  {
    if |a| > 0 && |b| > 0 && a[0] == b[0] {
      StrLessTrichotomy(a[1..], b[1..]);
      if a[1..] == b[1..] {
        assert a == [a[0]] + a[1..] && b == [b[0]] + b[1..];
      }
    }
  }

  lemma {:induction false} StrLessTransitive(a: string, b: string, c: string)
    requires StrLess(a, b) && StrLess(b, c)
    ensures StrLess(a, c)
    decreases |a|
  {
    if |a| > 0 && a[0] == b[0] && b[0] == c[0] {
      StrLessTransitive(a[1..], b[1..], c[1..]);
    }
  }

  /** For comparable values exactly one of the three operators holds. */
  lemma CompareTrichotomy(a: Value, b: Value)
    requires Comparable(a, b)
    ensures Compare(LessThan, a, b) || Compare(EqualTo, a, b) || Compare(GreaterThan, a, b)
    ensures !(Compare(LessThan, a, b) && Compare(EqualTo, a, b))
    ensures !(Compare(LessThan, a, b) && Compare(GreaterThan, a, b))
    ensures !(Compare(EqualTo, a, b) && Compare(GreaterThan, a, b))
  {
    if a.Str? {
      StrLessTrichotomy(a.text, b.text);
    }
  }

  /** `a > b` is `b < a`: `GreaterThan` is `LessThan` with the operands swapped. */
  lemma CompareConverse(a: Value, b: Value)
    requires Comparable(a, b)
    ensures Comparable(b, a)
    ensures Compare(GreaterThan, a, b) == Compare(LessThan, b, a)
  {
  }

  /** A proper prefix is less than the string it starts. */
  lemma {:induction false} StrLessPrefix(a: string, b: string)
    requires |a| < |b| && a == b[..|a|]
    ensures StrLess(a, b)
    decreases |a|
  {
    if |a| > 0 {
      assert a[1..] == b[1..][..|a| - 1];
      StrLessPrefix(a[1..], b[1..]);
    }
  }

  /** At the first index where two strings differ, their characters decide the order. */
  lemma {:induction false} StrLessFirstDifference(a: string, b: string, i: nat)
    requires i < |a| && i < |b| && a[..i] == b[..i] && a[i] != b[i]
    ensures StrLess(a, b) <==> a[i] < b[i]
    decreases i
  {
    if i > 0 {
      assert a[0] == a[..i][0] && b[0] == b[..i][0];
      assert a[1..][..i - 1] == a[..i][1..] && b[1..][..i - 1] == b[..i][1..];
      StrLessFirstDifference(a[1..], b[1..], i - 1);
    }
  }

  /** Both strict operators are transitive. */
  lemma CompareTransitive(op: Operator, a: Value, b: Value, c: Value)
    requires Comparable(a, b) && Comparable(b, c)
    requires op != EqualTo
    requires Compare(op, a, b) && Compare(op, b, c)
    ensures Comparable(a, c) && Compare(op, a, c)
  {
    if a.Str? {
      if op == LessThan {
        StrLessTransitive(a.text, b.text, c.text);
      } else {
        StrLessTransitive(c.text, b.text, a.text);
      }
    }
  }
}

=== FILE: records.dfy ===
/** A record: a hash map from field name to value (`src/record.rs`). */
module Records {
  import opened Wrappers
  import opened Errors
  import opened Values

  /** The map's iteration order carries no meaning, so a Dafny `map` is the whole record. */
  datatype Record = Record(fields: map<string, Value>)

  /** `field_cnt`: the number of distinct field names. */
  function FieldCnt(r: Record): (n: nat)
    ensures n == |r.fields.Keys|
    ensures n == 0 <==> r.fields == map[]
  {
    |r.fields|
  }

  /** `get_field_as_value`: the stored value, untyped. */
  function GetFieldAsValue(r: Record, name: string): (o: Option<Value>)
    ensures o.Some? <==> name in r.fields
    ensures o.Some? ==> o.value == r.fields[name]
  {
    if name in r.fields then Some(r.fields[name]) else None
  }

  function ContainsField(r: Record, name: string): (b: bool)
    ensures b <==> GetFieldAsValue(r, name).Some?
  {
    name in r.fields
  }

  /** `Record::new`: no fields at all. */
  function NewRecord(): (r: Record)
    ensures FieldCnt(r) == 0
    ensures forall name :: GetFieldAsValue(r, name) == None
  {
    Record(map[])
  }

  /** `add_field` and `add_field_as_value` (they differ only in converting a native scalar
      with the `From` constructors first): an upsert of one field. */
  function AddField(r: Record, name: string, v: Value): (r': Record)
    ensures GetFieldAsValue(r', name) == Some(v)
    ensures forall n :: n != name ==> GetFieldAsValue(r', n) == GetFieldAsValue(r, n)
  {
    Record(r.fields[name := v])
  }

  /** Upserting an existing name keeps the field count; a new name adds one. */
  lemma AddFieldCount(r: Record, name: string, v: Value)
    ensures FieldCnt(AddField(r, name, v)) == if ContainsField(r, name) then FieldCnt(r) else FieldCnt(r) + 1
  {
    var keys := AddField(r, name, v).fields.Keys;
    assert keys == r.fields.Keys + {name};
    if name !in r.fields {
      assert |keys| == |r.fields.Keys| + 1;
    }
  }

  /** `get_field::<T>`, where `want` is the tag of `T`. */
  function GetField(r: Record, name: string, want: ValueType): (res: Result<Value, TableError>)
    ensures res == Err(InvalidField) <==> !ContainsField(r, name)
    ensures res == Err(MismatchedTypes) <==> ContainsField(r, name) && ToType(r.fields[name]) != want
    ensures res.Ok? ==> GetFieldAsValue(r, name) == Some(res.value) && ToType(res.value) == want
    ensures ContainsField(r, name) && ToType(r.fields[name]) == want ==> res == Ok(r.fields[name])
  {
    match GetFieldAsValue(r, name)
    case None => Err(InvalidField)
    case Some(v) => Extract(v, want)
  }

  /** `extend_fields`: every field of `other` is upserted into `r`. */
  function ExtendFields(r: Record, other: Record): (r': Record)
    ensures r'.fields.Keys == r.fields.Keys + other.fields.Keys
    ensures forall n :: n in other.fields ==> r'.fields[n] == other.fields[n]
    ensures forall n :: n in r.fields && n !in other.fields ==> r'.fields[n] == r.fields[n]
  {
    Record(r.fields + other.fields)
  }

  /** The `record!` macro: `add_field` applied to each (name, value) pair in turn. */
  function RecordOf(pairs: seq<(string, Value)>): (r: Record)
    ensures |pairs| == 0 ==> r.fields == map[]
    ensures |pairs| > 0 ==> GetFieldAsValue(r, pairs[|pairs| - 1].0) == Some(pairs[|pairs| - 1].1)
  {
    if |pairs| == 0 then NewRecord()
    else
      var init := pairs[..|pairs| - 1];
      var last := pairs[|pairs| - 1];
      AddField(RecordOf(init), last.0, last.1)
  }

  /** `record!` has exactly the fields named by its pairs. */
  lemma {:induction false} RecordOfKeys(pairs: seq<(string, Value)>)
    ensures RecordOf(pairs).fields.Keys == set i | 0 <= i < |pairs| :: pairs[i].0
  {
    if |pairs| > 0 {
      var init := pairs[..|pairs| - 1];
      RecordOfKeys(init);
      assert forall i :: 0 <= i < |init| ==> init[i] == pairs[i];
      var before := set i | 0 <= i < |init| :: init[i].0;
      var after := set i | 0 <= i < |pairs| :: pairs[i].0;
      assert after == before + {pairs[|pairs| - 1].0} by {
        forall n | n in after ensures n in before + {pairs[|pairs| - 1].0} {
          var i :| 0 <= i < |pairs| && pairs[i].0 == n;
          if i < |init| { assert init[i].0 == n; }
        }
      }
    }
  }

  /** A name given more than once to `record!` keeps the value of its last pair. */
  lemma {:induction false} RecordOfLastWins(pairs: seq<(string, Value)>, i: nat)
    requires i < |pairs|
    requires forall j :: i < j < |pairs| ==> pairs[j].0 != pairs[i].0
    ensures GetFieldAsValue(RecordOf(pairs), pairs[i].0) == Some(pairs[i].1)
  {
    if i < |pairs| - 1 {
      var init := pairs[..|pairs| - 1];
      assert init[i] == pairs[i];
      RecordOfLastWins(init, i);
    }
  }
}

=== FILE: schemas.dfy ===
/** A table's schema: the `IndexMap` from field name to type tag (`src/table.rs`),
    the `field_types!` macro that builds one, and what it means for a record to fit it. */
module Schemas {
  import opened Wrappers
  import opened Errors
  import opened Values
  import opened Records

  datatype Field = Field(name: string, ty: ValueType)

  /** An insertion-ordered map from field name to type: its entries in order. */
  type Schema = seq<Field>

  function Names(s: Schema): set<string>
  {
    set i | 0 <= i < |s| :: s[i].name
  }

  /** An `IndexMap` holds each key once. */
  predicate DistinctNames(s: Schema)
  {
    forall i, j :: 0 <= i < j < |s| ==> s[i].name != s[j].name
  }

  lemma NamesCons(s: Schema)
    requires |s| > 0
    ensures Names(s) == {s[0].name} + Names(s[1..])
  {
    forall n | n in Names(s) ensures n in {s[0].name} + Names(s[1..]) {
      var i :| 0 <= i < |s| && s[i].name == n;
      if i > 0 { assert s[1..][i - 1].name == n; }
    }
  }

  /** `IndexMap::get`. */
  function Lookup(s: Schema, name: string): (r: Option<ValueType>)
    ensures r.Some? <==> name in Names(s)
    ensures r.Some? ==> Field(name, r.value) in s
    ensures DistinctNames(s) ==> forall i :: 0 <= i < |s| && s[i].name == name ==> r == Some(s[i].ty)
  {
    if |s| == 0 then None
    else if s[0].name == name then Some(s[0].ty)
    else
      NamesCons(s);
      Lookup(s[1..], name)
  }

  /** `IndexMap::insert`: an existing name keeps its position and takes the new type;
      a new name goes at the end. */
  function SchemaInsert(s: Schema, name: string, ty: ValueType): (r: Schema)
    ensures Lookup(r, name) == Some(ty)
    ensures forall n :: n != name ==> Lookup(r, n) == Lookup(s, n)
    ensures Names(r) == Names(s) + {name}
  {
    if |s| == 0 then [Field(name, ty)]
    else if s[0].name == name then
      NamesCons(s);
      NamesCons([Field(name, ty)] + s[1..]);
      assert ([Field(name, ty)] + s[1..])[1..] == s[1..];
      [Field(name, ty)] + s[1..]
    else
      var r := [s[0]] + SchemaInsert(s[1..], name, ty);
      NamesCons(s);
      NamesCons(r);
      assert r[1..] == SchemaInsert(s[1..], name, ty);
      r
  }

  /** `IndexMap::insert` grows the map by one entry exactly when the name is new. */
  lemma {:induction false} SchemaInsertLength(s: Schema, name: string, ty: ValueType)
    ensures |SchemaInsert(s, name, ty)| == if name in Names(s) then |s| else |s| + 1
  {
    if |s| > 0 {
      NamesCons(s);
      if s[0].name != name {
        SchemaInsertLength(s[1..], name, ty);
      }
    }
  }

  /** Where `IndexMap::insert` puts things: every old entry keeps its position and name,
      and a new name is appended as the last entry. */
  lemma {:induction false} SchemaInsertPositions(s: Schema, name: string, ty: ValueType)
    ensures var r := SchemaInsert(s, name, ty);
      && |r| >= |s|
      && (forall i :: 0 <= i < |s| ==> r[i].name == s[i].name)
      && (|r| > |s| ==> r[|s|] == Field(name, ty))
  {
    var r := SchemaInsert(s, name, ty);
    if |s| > 0 && s[0].name != name {
      var r' := SchemaInsert(s[1..], name, ty);
      SchemaInsertPositions(s[1..], name, ty);
      assert r == [s[0]] + r';
      forall i | 0 <= i < |s| ensures r[i].name == s[i].name {
        if i > 0 { assert r[i] == r'[i - 1] && s[i] == s[1..][i - 1]; }
      }
    }
  }

  lemma SchemaInsertDistinct(s: Schema, name: string, ty: ValueType)
    requires DistinctNames(s)
    ensures DistinctNames(SchemaInsert(s, name, ty))
  {
    var r := SchemaInsert(s, name, ty);
    SchemaInsertLength(s, name, ty);
    SchemaInsertPositions(s, name, ty);
    forall i, j | 0 <= i < j < |r| ensures r[i].name != r[j].name {
      if j == |s| {
        assert r[j].name == name;
      }
    }
  }

  /** The type tags `field_types!` accepts; any other tag panics there. */
  function TypeTag(tag: string): (t: Option<ValueType>)
    ensures t.Some? <==> tag in {"str", "int", "uint", "float"}
    ensures t == Some(ValueType.Str) <==> tag == "str"
    ensures t == Some(ValueType.Int) <==> tag == "int"
    ensures t == Some(ValueType.UInt) <==> tag == "uint"
    ensures t == Some(ValueType.Float) <==> tag == "float"
  {
    if tag == "str" then Some(ValueType.Str)
    else if tag == "int" then Some(ValueType.Int)
    else if tag == "uint" then Some(ValueType.UInt)
    else if tag == "float" then Some(ValueType.Float)
    else None
  }

  function PairNames(pairs: seq<(string, string)>): set<string>
  {
    set i | 0 <= i < |pairs| :: pairs[i].0
  }

  lemma PairNamesSnoc(pairs: seq<(string, string)>)
    requires |pairs| > 0
    ensures PairNames(pairs) == PairNames(pairs[..|pairs| - 1]) + {pairs[|pairs| - 1].0}
  {
    var init := pairs[..|pairs| - 1];
    forall n | n in PairNames(pairs) ensures n in PairNames(init) + {pairs[|pairs| - 1].0} {
      var i :| 0 <= i < |pairs| && pairs[i].0 == n;
      if i < |init| { assert init[i].0 == n; }
    }
  }

  /** The `field_types!` macro: each (name, tag) pair inserted in turn. */
  function FieldTypes(pairs: seq<(string, string)>): (s: Schema)
    requires forall i :: 0 <= i < |pairs| ==> TypeTag(pairs[i].1).Some?
    ensures DistinctNames(s)
    ensures Names(s) == PairNames(pairs)
  {
    if |pairs| == 0 then []
    else
      var init := pairs[..|pairs| - 1];
      var last := pairs[|pairs| - 1];
      PairNamesSnoc(pairs);
      SchemaInsertDistinct(FieldTypes(init), last.0, TypeTag(last.1).value);
      SchemaInsert(FieldTypes(init), last.0, TypeTag(last.1).value)
  }

  /** A name given more than once to `field_types!` gets the type of its last pair. */
  lemma {:induction false} FieldTypesLastWins(pairs: seq<(string, string)>, i: nat)
    requires forall j :: 0 <= j < |pairs| ==> TypeTag(pairs[j].1).Some?
    requires i < |pairs|
    requires forall j :: i < j < |pairs| ==> pairs[j].0 != pairs[i].0
    ensures Lookup(FieldTypes(pairs), pairs[i].0) == TypeTag(pairs[i].1)
  {
    if i < |pairs| - 1 {
      var init := pairs[..|pairs| - 1];
      assert init[i] == pairs[i];
      FieldTypesLastWins(init, i);
    }
  }

  /** The record has the field, with a value of the field's declared type. */
  predicate FieldOk(rec: Record, f: Field)
  {
    f.name in rec.fields && ToType(rec.fields[f.name]) == f.ty
  }

  /** The record carries every schema field with its declared type (extra fields allowed). */
  predicate Conforms(rec: Record, s: Schema)
  {
    forall i :: 0 <= i < |s| ==> FieldOk(rec, s[i])
  }

  /** The first schema entry, in schema order, that the record does not satisfy. */
  predicate FirstBad(rec: Record, s: Schema, i: int)
  {
    0 <= i < |s| && !FieldOk(rec, s[i]) && forall j :: 0 <= j < i ==> FieldOk(rec, s[j])
  }

  /** The check in `add_record` for a table with a schema: the schema's entries in order,
      the first offending entry deciding between a missing name and a wrong type. */
  function CheckRecord(s: Schema, rec: Record): (r: Result<(), TableError>)
    ensures r.Ok? <==> Conforms(rec, s)
  {
    if |s| == 0 then Ok(())
    else if s[0].name !in rec.fields then Err(IncorrectFieldNames)
    else if ToType(rec.fields[s[0].name]) != s[0].ty then Err(IncorrectFieldTypes)
    else
      var r := CheckRecord(s[1..], rec);
      assert Conforms(rec, s) <==> Conforms(rec, s[1..]) by {
        if Conforms(rec, s[1..]) {
          forall j | 0 <= j < |s| ensures FieldOk(rec, s[j]) {
            if j > 0 { assert s[1..][j - 1] == s[j]; }
          }
        }
      }
      r
  }

  /** The check stops at the first offending schema entry: a missing name gives
      `IncorrectFieldNames`, a present field of another type `IncorrectFieldTypes`. */
  lemma {:induction false} CheckRecordFirstOffender(s: Schema, rec: Record)
    ensures CheckRecord(s, rec) == Err(IncorrectFieldNames) <==> exists i :: FirstBad(rec, s, i) && s[i].name !in rec.fields
    ensures CheckRecord(s, rec) == Err(IncorrectFieldTypes) <==> exists i :: FirstBad(rec, s, i) && s[i].name in rec.fields
    ensures CheckRecord(s, rec).Err? ==> CheckRecord(s, rec).error in {IncorrectFieldNames, IncorrectFieldTypes}
  {
    if |s| > 0 {
      if !FieldOk(rec, s[0]) {
        assert FirstBad(rec, s, 0);
        forall i | FirstBad(rec, s, i) ensures i == 0 { }
      } else {
        CheckRecordFirstOffender(s[1..], rec);
        forall i ensures FirstBad(rec, s, i) <==> i >= 1 && FirstBad(rec, s[1..], i - 1) {
          if i >= 1 && FirstBad(rec, s[1..], i - 1) {
            forall j | 0 <= j < i ensures FieldOk(rec, s[j]) {
              if j > 0 { assert s[1..][j - 1] == s[j]; }
            }
          }
        }
      }
    }
  }

  /** The schema a generic table adopts from its first record: one entry per field, in
      the order `order` in which the record's hash map yields them, typed by the value. */
  function Adopt(rec: Record, order: seq<string>): (s: Schema)
    requires forall n :: n in order ==> n in rec.fields
    ensures |s| == |order|
    ensures forall i :: 0 <= i < |s| ==> s[i].name == order[i] && s[i].ty == ToType(rec.fields[order[i]])
  {
    if |order| == 0 then [] else [Field(order[0], ToType(rec.fields[order[0]]))] + Adopt(rec, order[1..])
  }

  /** A record fits the schema adopted from `first` exactly when it has every field of
      `first`, with a value of the same type: the adoption order plays no part. */
  predicate SameShape(first: Record, rec: Record)
  {
    forall n :: n in first.fields ==> n in rec.fields && ToType(rec.fields[n]) == ToType(first.fields[n])
  }

  /** The adopted schema lists each field of the first record once, with its type. */
  lemma AdoptedSchema(first: Record, order: seq<string>)
    requires forall i, j :: 0 <= i < j < |order| ==> order[i] != order[j]
    requires forall n :: n in order <==> n in first.fields
    ensures DistinctNames(Adopt(first, order))
    ensures Names(Adopt(first, order)) == first.fields.Keys
    ensures Conforms(first, Adopt(first, order))
  {
    var s := Adopt(first, order);
    forall i, j | 0 <= i < j < |s| ensures s[i].name != s[j].name {
      assert s[i].name == order[i] && s[j].name == order[j];
    }
    forall i | 0 <= i < |s| ensures FieldOk(first, s[i]) {
      assert s[i].name == order[i];
    }
    forall n ensures n in Names(s) <==> n in first.fields {
      if n in order {
        var i :| 0 <= i < |order| && order[i] == n;
        assert s[i].name == n;
      }
    }
  }

  /** Whatever the adoption order, a later record fits the adopted schema exactly when it
      has the first record's shape. */
  lemma AdoptedSchemaFits(first: Record, order: seq<string>, rec: Record)
    requires forall n :: n in order <==> n in first.fields
    ensures Conforms(rec, Adopt(first, order)) <==> SameShape(first, rec)
  {
    var s := Adopt(first, order);
    if Conforms(rec, s) {
      forall n | n in first.fields ensures n in rec.fields && ToType(rec.fields[n]) == ToType(first.fields[n]) {
        var i :| 0 <= i < |order| && order[i] == n;
        assert FieldOk(rec, s[i]);
      }
    }
    if SameShape(first, rec) {
      forall i | 0 <= i < |s| ensures FieldOk(rec, s[i]) {
        assert s[i].name in first.fields;
      }
    }
  }


  /** In a row that fits a schema, a schema field's value has the declared type. */
  lemma SchemaTypeOfField(rec: Record, s: Schema, name: string, ty: ValueType)
    requires Conforms(rec, s)
    requires Lookup(s, name) == Some(ty)
    ensures name in rec.fields && ToType(rec.fields[name]) == ty
  {
    var i :| 0 <= i < |s| && s[i] == Field(name, ty);
    assert FieldOk(rec, s[i]);
  }
}

=== FILE: tables.dfy ===
/** A table: an optional schema plus its rows in insertion order (`src/table.rs`). */
module Tables {
  import opened Wrappers
  import opened Errors
  import opened Values
  import opened Records
  import opened Schemas
  import opened Ordering

  /** `field_types` is `None` for a generic table that has not yet seen a record. */
  datatype Table = Table(fieldTypes: Option<Schema>, records: seq<Record>)

  /** The table invariant: a table without a schema holds no rows, and once a schema
      exists it names each field once and every row fits it. */
  predicate Valid(t: Table)
  {
    match t.fieldTypes
    case None => |t.records| == 0
    case Some(s) => DistinctNames(s) && forall k :: 0 <= k < |t.records| ==> Conforms(t.records[k], s)
  }

  /** The order in which a record's hash map yields its field names when a generic table
      adopts its schema from its first record. Rust leaves it unspecified, so the model
      takes it as a parameter. A table adopts a schema once, so one order per call is all
      an operation needs; the join, which visits many rows' fields, takes one order per
      row instead. */
  type Iteration = map<string, Value> -> seq<string>

  /** `order` lists every key exactly once. */
  predicate Enumerates(order: seq<string>, keys: set<string>)
  {
    && (forall i, j :: 0 <= i < j < |order| ==> order[i] != order[j])
    && (forall n :: n in order ==> n in keys)
    && (forall n :: n in keys ==> n in order)
  }

  /** `iter` behaves like the iteration of a hash map: every map yields each of its keys once. */
  ghost predicate IsIteration(iter: Iteration)
  {
    forall m :: Enumerates(iter(m), m.Keys)
  }

  /** `Table::new`. */
  function New(s: Schema): (t: Table)
    requires DistinctNames(s)
    ensures Valid(t) && t.fieldTypes == Some(s) && RecordCnt(t) == 0
  {
    Table(Some(s), [])
  }

  /** `Table::new_generic`. */
  function NewGeneric(): (t: Table)
    ensures Valid(t) && t.fieldTypes.None? && RecordCnt(t) == 0
  {
    Table(None, [])
  }

  /** `record_cnt`: the number of rows, which bounds every valid row index. */
  function RecordCnt(t: Table): (n: nat)
    ensures n == |t.records|
    ensures n == 0 <==> t.records == []
  {
    |t.records|
  }

  /** `add_record`. A generic table adopts the schema of its first record; a table with a
      schema checks the record against it and appends it, or is left as it was. */
  function AddRecord(t: Table, rec: Record, iter: Iteration): (s: Step<Table, Result<(), TableError>>)
    requires t.fieldTypes.None? ==> Enumerates(iter(rec.fields), rec.fields.Keys)
    ensures s.result.Ok? ==> s.state.records == t.records + [rec]
    ensures s.result.Err? ==> s.state == t
    ensures s.state.fieldTypes.Some?
    ensures t.fieldTypes.None? ==> s.result.Ok?
    ensures t.fieldTypes.Some? ==>
      && s.state.fieldTypes == t.fieldTypes
      && s.result == CheckRecord(t.fieldTypes.value, rec)
    ensures Valid(t) ==> Valid(s.state)
  {
    match t.fieldTypes
    case None =>
      var order := iter(rec.fields);
      AdoptedSchema(rec, order);
      Step(Table(Some(Adopt(rec, order)), t.records + [rec]), Ok(()))
    case Some(schema) =>
      var check := CheckRecord(schema, rec);
      if check.Ok? then Step(t.(records := t.records + [rec]), check) else Step(t, check)
  }

  /** A generic table's first record is always accepted, and the schema it adopts names
      exactly the record's fields, each with the type of its value. */
  lemma AddRecordAdopts(t: Table, rec: Record, iter: Iteration)
    requires t.fieldTypes.None?
    requires Enumerates(iter(rec.fields), rec.fields.Keys)
    ensures var s := AddRecord(t, rec, iter);
      && s.result.Ok?
      && DistinctNames(s.state.fieldTypes.value)
      && Names(s.state.fieldTypes.value) == rec.fields.Keys
      && forall f :: f in s.state.fieldTypes.value ==> f.ty == ToType(rec.fields[f.name])
  {
    var order := iter(rec.fields);
    AdoptedSchema(rec, order);
    var a := Adopt(rec, order);
    forall f | f in a ensures f.ty == ToType(rec.fields[f.name]) {
      var i :| 0 <= i < |a| && a[i] == f;
    }
  }

  /** Adding a record that fits the schema appends it. */
  lemma AddFittingRecord(t: Table, rec: Record, iter: Iteration)
    requires t.fieldTypes.Some? && Conforms(rec, t.fieldTypes.value)
    ensures AddRecord(t, rec, iter) == Step(Table(t.fieldTypes, t.records + [rec]), Ok(()))
  {
    var c := CheckRecord(t.fieldTypes.value, rec);
    assert c.Ok? && c.value == ();
  }

  /** `add_records`: `add_record` on each record in turn, stopping at the first error. */
  function AddRecords(t: Table, recs: seq<Record>, iter: Iteration): (s: Step<Table, Result<(), TableError>>)
    requires t.fieldTypes.None? && |recs| > 0 ==> Enumerates(iter(recs[0].fields), recs[0].fields.Keys)
    ensures Valid(t) ==> Valid(s.state)
    ensures |recs| > 0 ==> s.state.fieldTypes.Some?
    ensures t.fieldTypes.Some? ==> s.state.fieldTypes == t.fieldTypes
    decreases |recs|
  {
    if |recs| == 0 then Step(t, Ok(()))
    else
      var first := AddRecord(t, recs[0], iter);
      if first.result.Err? then first
      else AddRecords(first.state, recs[1..], iter)
  }

  /** The records `add_records` leaves in the table are the old ones followed by a prefix
      of the new ones. */
  lemma {:induction false} AddRecordsKeepsAccepted(t: Table, recs: seq<Record>, iter: Iteration)
    requires t.fieldTypes.None? && |recs| > 0 ==> Enumerates(iter(recs[0].fields), recs[0].fields.Keys)
    ensures var s := AddRecords(t, recs, iter);
      var k := |s.state.records| - |t.records|;
      && 0 <= k <= |recs|
      && s.state.records == t.records + recs[..k]
    decreases |recs|
  {
    if |recs| > 0 {
      var first := AddRecord(t, recs[0], iter);
      if first.result.Ok? {
        AddRecordsKeepsAccepted(first.state, recs[1..], iter);
        var s := AddRecords(first.state, recs[1..], iter);
        var k := |s.state.records| - |first.state.records|;
        assert recs[..k + 1] == [recs[0]] + recs[1..][..k];
        AppendAssoc(t.records, [recs[0]], recs[1..][..k]);
      } else {
        assert t.records + recs[..0] == t.records;
      }
    } else {
      assert t.records + recs[..0] == t.records;
    }
  }

  /** Records before the failing one stay inserted; the failing one is the first that
      `add_record` rejects, with the error it gives. */
  lemma {:induction false} AddRecordsStopsAtFirstError(t: Table, recs: seq<Record>, iter: Iteration)
    requires t.fieldTypes.None? && |recs| > 0 ==> Enumerates(iter(recs[0].fields), recs[0].fields.Keys)
    ensures var s := AddRecords(t, recs, iter);
      var k := |s.state.records| - |t.records|;
      && 0 <= k <= |recs|
      && s.state.records == t.records + recs[..k]
      && (s.result.Ok? <==> k == |recs|)
      && (s.result.Err? ==> s.state.fieldTypes.Some? && AddRecord(s.state, recs[k], iter) == s)
    decreases |recs|
  {
    AddRecordsKeepsAccepted(t, recs, iter);
    if |recs| > 0 {
      var first := AddRecord(t, recs[0], iter);
      if first.result.Ok? {
        AddRecordsStopsAtFirstError(first.state, recs[1..], iter);
        var s := AddRecords(first.state, recs[1..], iter);
        var k := |s.state.records| - |first.state.records|;
        if s.result.Err? {
          assert recs[1..][k] == recs[k + 1];
        }
      }
    }
  }

  /** `remove_record`. */
  function RemoveRecord(t: Table, idx: nat): (s: Step<Table, Option<Record>>)
    ensures s.result.None? <==> idx >= RecordCnt(t)
    ensures s.result.None? ==> s.state == t
    ensures s.result.Some? ==>
      && s.result.value == t.records[idx]
      && RecordCnt(s.state) == RecordCnt(t) - 1
      && s.state.fieldTypes == t.fieldTypes
      && (forall k :: 0 <= k < idx ==> s.state.records[k] == t.records[k])
      && (forall k :: idx <= k < RecordCnt(s.state) ==> s.state.records[k] == t.records[k + 1])
    ensures Valid(t) ==> Valid(s.state)
  {
    if idx >= RecordCnt(t) then Step(t, None)
    else Step(t.(records := t.records[..idx] + t.records[idx + 1..]), Some(t.records[idx]))
  }

  /** `get_record`. */
  function GetRecord(t: Table, idx: nat): (r: Option<Record>)
    ensures r.None? <==> idx >= RecordCnt(t)
    ensures r.Some? ==> r.value == t.records[idx]
  {
    if idx >= RecordCnt(t) then None else Some(t.records[idx])
  }

  /** `remove_record` hands back exactly what `get_record` sees at the same index. */
  lemma RemoveReturnsRecord(t: Table, idx: nat)
    ensures RemoveRecord(t, idx).result == GetRecord(t, idx)
  {
  }

  /** `Table::get_field::<T>`, where `want` is the tag of `T`. The row is indexed directly,
      so an index past the end panics. */
  function GetField(t: Table, idx: nat, name: string, want: ValueType): (o: Outcome<Result<Value, TableError>>)
    ensures o.Panicked? <==> idx >= RecordCnt(t)
    ensures o.Returned? ==>
      && (o.value == Err(InvalidField) <==> !ContainsField(t.records[idx], name))
      && (o.value == Err(MismatchedTypes) <==> ContainsField(t.records[idx], name) && ToType(t.records[idx].fields[name]) != want)
      && (o.value.Ok? ==> GetFieldAsValue(t.records[idx], name) == Some(o.value.value))
    ensures o.Returned? && ContainsField(t.records[idx], name) && ToType(t.records[idx].fields[name]) == want ==>
      o.value == Ok(t.records[idx].fields[name])
  {
    if idx >= RecordCnt(t) then Panicked else Returned(Records.GetField(t.records[idx], name, want))
  }

  /** `change_field`: replaces a present field by a value of the same type. The row is
      indexed directly, so an index past the end panics. */
  function ChangeField(t: Table, idx: nat, name: string, v: Value): (o: Outcome<Step<Table, Result<(), TableError>>>)
    ensures o.Panicked? <==> idx >= RecordCnt(t)
    ensures o.Returned? && !ContainsField(t.records[idx], name) ==> o.value == Step(t, Err(InvalidField))
    ensures o.Returned? && ContainsField(t.records[idx], name) && ToType(t.records[idx].fields[name]) != ToType(v) ==>
      o.value == Step(t, Err(MismatchedTypes))
    ensures o.Returned? ==>
      (o.value.result.Ok? <==> ContainsField(t.records[idx], name) && ToType(t.records[idx].fields[name]) == ToType(v))
    ensures o.Returned? && o.value.result.Ok? ==>
      var s := o.value.state;
      && RecordCnt(s) == RecordCnt(t)
      && s.fieldTypes == t.fieldTypes
      && GetField(s, idx, name, ToType(v)) == Returned(Ok(v))
      && (forall n :: n != name ==> GetFieldAsValue(s.records[idx], n) == GetFieldAsValue(t.records[idx], n))
      && (forall k :: 0 <= k < RecordCnt(t) && k != idx ==> s.records[k] == t.records[k])
    ensures o.Returned? && Valid(t) ==> Valid(o.value.state)
  {
    if idx >= RecordCnt(t) then Panicked
    else
      var rec := t.records[idx];
      if name !in rec.fields then Returned(Step(t, Err(InvalidField)))
      else if ToType(rec.fields[name]) != ToType(v) then Returned(Step(t, Err(MismatchedTypes)))
      else
        var t' := t.(records := t.records[idx := AddField(rec, name, v)]);
        assert Valid(t) ==> Valid(t') by {
          if Valid(t) && t.fieldTypes.Some? {
            var sch := t.fieldTypes.value;
            forall k, i | 0 <= k < |t'.records| && 0 <= i < |sch| ensures FieldOk(t'.records[k], sch[i]) {
              assert FieldOk(t.records[k], sch[i]);
            }
          }
        }
        Returned(Step(t', Ok(())))
  }

  // ---- Projection: `get_fields` ----

  /** The requested fields of a row, copied by value: what each projected row holds. */
  function Pick(rec: Record, names: seq<string>): map<string, Value>
    requires forall n :: n in names ==> n in rec.fields
  {
    map n | n in names :: rec.fields[n]
  }

  /** The inner loop of `get_fields`: copy each requested field of `rec` into `acc`,
      failing on the first one the row lacks. */
  function Project(acc: Record, rec: Record, names: seq<string>): (r: Result<Record, TableError>)
    ensures r.Ok? <==> forall n :: n in names ==> n in rec.fields
    ensures r.Err? ==> r.error == InvalidField
    decreases |names|
  {
    if |names| == 0 then Ok(acc)
    else if names[0] !in rec.fields then Err(InvalidField)
    else Project(AddField(acc, names[0], rec.fields[names[0]]), rec, names[1..])
  }

  /** A successful projection adds to the accumulated row exactly the requested fields,
      each with the source row's value. */
  lemma {:induction false} ProjectAdds(acc: Record, rec: Record, names: seq<string>)
    requires forall n :: n in names ==> n in rec.fields
    ensures Project(acc, rec, names) == Ok(Record(acc.fields + Pick(rec, names)))
    decreases |names|
  {
    if |names| > 0 {
      var acc' := AddField(acc, names[0], rec.fields[names[0]]);
      ProjectAdds(acc', rec, names[1..]);
      assert acc'.fields + Pick(rec, names[1..]) == acc.fields + Pick(rec, names);
    } else {
      assert acc.fields + Pick(rec, names) == acc.fields;
    }
  }

  /** Projecting into a fresh row yields exactly the picked fields. */
  lemma ProjectFresh(rec: Record, names: seq<string>)
    requires forall n :: n in names ==> n in rec.fields
    ensures Project(NewRecord(), rec, names) == Ok(Record(Pick(rec, names)))
  {
    ProjectAdds(NewRecord(), rec, names);
    assert NewRecord().fields + Pick(rec, names) == Pick(rec, names);
  }

  /** The outer loop of `get_fields`: each projected row is added to a generic table, and
      the `unwrap` on that addition panics when a row does not fit the schema the first
      projected row gave it. */
  function ProjectRows(rows: seq<Record>, names: seq<string>, acc: Table, iter: Iteration): (o: Outcome<Result<Table, TableError>>)
    requires IsIteration(iter)
    ensures o.Returned? && o.value.Ok? ==> |o.value.value.records| == |acc.records| + |rows|
    ensures o.Returned? && o.value.Err? ==> o.value.error == InvalidField
    decreases |rows|
  {
    if |rows| == 0 then Returned(Ok(acc))
    else
      match Project(NewRecord(), rows[0], names)
      case Err(e) => Returned(Err(e))
      case Ok(row) =>
        var s := AddRecord(acc, row, iter);
        if s.result.Err? then Panicked else ProjectRows(rows[1..], names, s.state, iter)
  }

  /** `get_fields`. */
  function GetFields(t: Table, names: seq<string>, iter: Iteration): (o: Outcome<Result<Table, TableError>>)
    requires IsIteration(iter)
    ensures t.fieldTypes.None? && |names| > 0 ==> o == Returned(Err(TableHasNoFields))
    ensures t.fieldTypes.None? && |names| == 0 ==> o == Returned(Ok(NewGeneric()))
    ensures t.fieldTypes.Some? && |t.records| == 0 ==> o == Returned(Ok(NewGeneric()))
  {
    match t.fieldTypes
    case None => if |names| > 0 then Returned(Err(TableHasNoFields)) else Returned(Ok(NewGeneric()))
    case Some(_) => ProjectRows(t.records, names, NewGeneric(), iter)
  }

  /** Every row has every requested field. */
  predicate HasAll(rows: seq<Record>, names: seq<string>)
  {
    forall k, n :: 0 <= k < |rows| && n in names ==> n in rows[k].fields
  }

  /** The projection loop fails only with `InvalidField`, and only when some row lacks a
      requested field. */
  lemma {:induction false} ProjectRowsFails(rows: seq<Record>, names: seq<string>, acc: Table, iter: Iteration)
    requires IsIteration(iter)
    ensures var o := ProjectRows(rows, names, acc, iter);
      o.Returned? && o.value.Err? ==> o.value.error == InvalidField && !HasAll(rows, names)
    decreases |rows|
  {
    var o := ProjectRows(rows, names, acc, iter);
    if |rows| > 0 && o.Returned? && o.value.Err? {
      var p := Project(NewRecord(), rows[0], names);
      if p.Ok? {
        var s := AddRecord(acc, p.value, iter);
        assert o == ProjectRows(rows[1..], names, s.state, iter);
        ProjectRowsFails(rows[1..], names, s.state, iter);
        var k, n :| 0 <= k < |rows[1..]| && n in names && n !in rows[1..][k].fields;
        assert rows[k + 1] == rows[1..][k];
      } else {
        var n :| n in names && n !in rows[0].fields;
      }
    }
  }

  /** The rows a projection is expected to produce: each input row cut down to the
      requested fields, in order. */
  function Projected(rows: seq<Record>, names: seq<string>): (out: seq<Record>)
    requires HasAll(rows, names)
    ensures |out| == |rows|
    decreases |rows|
  {
    if |rows| == 0 then []
    else
      assert HasAll(rows[1..], names) by {
        forall k, n | 0 <= k < |rows[1..]| && n in names ensures n in rows[1..][k].fields {
          assert rows[1..][k] == rows[k + 1];
        }
      }
      [Record(Pick(rows[0], names))] + Projected(rows[1..], names)
  }

  /** Each projected row holds exactly the requested fields of its input row. */
  lemma {:induction false} ProjectedAt(rows: seq<Record>, names: seq<string>, k: nat)
    requires HasAll(rows, names) && k < |rows|
    ensures Projected(rows, names)[k].fields == Pick(rows[k], names)
    decreases k
  {
    if k > 0 {
      assert HasAll(rows[1..], names) by {
        forall i, n | 0 <= i < |rows[1..]| && n in names ensures n in rows[1..][i].fields {
          assert rows[1..][i] == rows[i + 1];
        }
      }
      ProjectedAt(rows[1..], names, k - 1);
      assert rows[1..][k - 1] == rows[k];
    }
  }

  /** Concatenation is associative; stated once so that larger proofs need not rediscover it. */
  lemma AppendAssoc<T>(a: seq<T>, b: seq<T>, c: seq<T>)
    ensures (a + b) + c == a + (b + c)
  {
  }

  /** A row with every requested field followed by rows that have them all. */
  lemma HasAllCons(rows: seq<Record>, names: seq<string>)
    requires |rows| > 0
    requires forall n :: n in names ==> n in rows[0].fields
    requires HasAll(rows[1..], names)
    ensures HasAll(rows, names)
  {
    forall k, n | 0 <= k < |rows| && n in names ensures n in rows[k].fields {
      if k > 0 { assert rows[k] == rows[1..][k - 1]; }
    }
  }

  /** One turn of the projection loop that does not stop the loop: the first row has every
      requested field and its projection is added. */
  lemma ProjectRowsStep(rows: seq<Record>, names: seq<string>, acc: Table, iter: Iteration)
    requires IsIteration(iter) && |rows| > 0
    requires ProjectRows(rows, names, acc, iter).Returned? && ProjectRows(rows, names, acc, iter).value.Ok?
    ensures forall n :: n in names ==> n in rows[0].fields
    ensures var s := AddRecord(acc, Record(Pick(rows[0], names)), iter);
      && s.result.Ok?
      && ProjectRows(rows, names, acc, iter) == ProjectRows(rows[1..], names, s.state, iter)
  {
    ProjectFresh(rows[0], names);
  }

  /** A projection loop that returns a table has appended, in order, one row per input row
      holding exactly the requested fields. */
  lemma {:induction false} ProjectRowsAppends(rows: seq<Record>, names: seq<string>, acc: Table, iter: Iteration)
    requires IsIteration(iter)
    requires Valid(acc)
    ensures var o := ProjectRows(rows, names, acc, iter);
      o.Returned? && o.value.Ok? ==>
        && HasAll(rows, names)
        && Valid(o.value.value)
        && o.value.value.records == acc.records + Projected(rows, names)
    decreases |rows|
  {
    var o := ProjectRows(rows, names, acc, iter);
    if |rows| > 0 && o.Returned? && o.value.Ok? {
      ProjectRowsStep(rows, names, acc, iter);
      var row := Record(Pick(rows[0], names));
      var s := AddRecord(acc, row, iter);
      ProjectRowsAppends(rows[1..], names, s.state, iter);
      HasAllCons(rows, names);
      var rest := Projected(rows[1..], names);
      assert Projected(rows, names) == [row] + rest;
      AppendAssoc(acc.records, [row], rest);
    } else if |rows| == 0 {
      assert acc.records + [] == acc.records;
    }
  }

  /** A successful projection has one row per input row, in order, and each holds exactly
      the requested fields with the input's values; it fails only on a missing field. */
  lemma GetFieldsRows(t: Table, names: seq<string>, iter: Iteration)
    requires IsIteration(iter)
    requires t.fieldTypes.Some?
    ensures var o := GetFields(t, names, iter);
      && (o.Returned? && o.value.Err? ==> o.value.error == InvalidField && !HasAll(t.records, names))
      && (o.Returned? && o.value.Ok? ==>
        && HasAll(t.records, names)
        && Valid(o.value.value)
        && RecordCnt(o.value.value) == RecordCnt(t)
        && (forall k :: 0 <= k < RecordCnt(t) ==> o.value.value.records[k].fields == Pick(t.records[k], names)))
  {
    ProjectRowsFails(t.records, names, NewGeneric(), iter);
    ProjectRowsAppends(t.records, names, NewGeneric(), iter);
    var o := GetFields(t, names, iter);
    if o.Returned? && o.value.Ok? {
      assert [] + Projected(t.records, names) == Projected(t.records, names);
      forall k | 0 <= k < RecordCnt(t) ensures o.value.value.records[k].fields == Pick(t.records[k], names) {
        ProjectedAt(t.records, names, k);
      }
    }
  }

  lemma {:induction false} ProjectRowsReturns(rows: seq<Record>, names: seq<string>, acc: Table, iter: Iteration)
    requires IsIteration(iter)
    requires HasAll(rows, names)
    requires acc.fieldTypes.Some? ==>
      forall k :: 0 <= k < |rows| ==> Conforms(Record(Pick(rows[k], names)), acc.fieldTypes.value)
    requires acc.fieldTypes.None? && |rows| > 0 ==>
      forall k :: 0 <= k < |rows| ==> SameShape(Record(Pick(rows[0], names)), Record(Pick(rows[k], names)))
    ensures ProjectRows(rows, names, acc, iter).Returned?
    ensures ProjectRows(rows, names, acc, iter).value.Ok?
    decreases |rows|
  {
    if |rows| > 0 {
      var row := Record(Pick(rows[0], names));
      ProjectFresh(rows[0], names);
      var s := AddRecord(acc, row, iter);
      if acc.fieldTypes.None? {
        var order := iter(row.fields);
        forall k | 0 <= k < |rows[1..]| ensures Conforms(Record(Pick(rows[1..][k], names)), s.state.fieldTypes.value) {
          assert rows[1..][k] == rows[k + 1];
          AdoptedSchemaFits(row, order, Record(Pick(rows[k + 1], names)));
        }
      } else {
        assert Conforms(row, acc.fieldTypes.value);
        forall k | 0 <= k < |rows[1..]| ensures Conforms(Record(Pick(rows[1..][k], names)), s.state.fieldTypes.value) {
          assert rows[1..][k] == rows[k + 1];
        }
      }
      ProjectRowsReturns(rows[1..], names, s.state, iter);
    }
  }

  /** Projecting fields the schema declares never panics and never fails when every row
      has them, which the table invariant guarantees. */
  lemma GetFieldsOfSchemaFields(t: Table, names: seq<string>, iter: Iteration)
    requires IsIteration(iter)
    requires Valid(t) && t.fieldTypes.Some?
    requires forall n :: n in names ==> n in Names(t.fieldTypes.value)
    ensures GetFields(t, names, iter).Returned?
    ensures GetFields(t, names, iter).value.Ok?
  {
    var s := t.fieldTypes.value;
    var rows := t.records;
    forall k, n | 0 <= k < |rows| && n in names ensures n in rows[k].fields && ToType(rows[k].fields[n]) == Lookup(s, n).value {
      SchemaTypeOfField(rows[k], s, n, Lookup(s, n).value);
    }
    ProjectRowsReturns(rows, names, NewGeneric(), iter);
  }

  /** The `unwrap` in `get_fields` panics when a requested field lies outside the schema
      and its type differs between the first two rows. */
  lemma GetFieldsPanicsOnVaryingType(t: Table, names: seq<string>, iter: Iteration, n: string)
    requires IsIteration(iter)
    requires t.fieldTypes.Some? && |t.records| >= 2
    requires forall m :: m in names ==> m in t.records[0].fields && m in t.records[1].fields
    requires n in names && ToType(t.records[0].fields[n]) != ToType(t.records[1].fields[n])
    ensures GetFields(t, names, iter).Panicked?
  {
    var rows := t.records;
    var row0 := Record(Pick(rows[0], names));
    var row1 := Record(Pick(rows[1], names));
    ProjectFresh(rows[0], names);
    ProjectFresh(rows[1], names);
    var s := AddRecord(NewGeneric(), row0, iter);
    AdoptedSchemaFits(row0, iter(row0.fields), row1);
    assert row0.fields[n] == rows[0].fields[n] && row1.fields[n] == rows[1].fields[n];
    assert !SameShape(row0, row1);
    assert AddRecord(s.state, row1, iter).result.Err?;
    assert rows[1..][0] == rows[1];
    assert ProjectRows(rows[1..], names, s.state, iter).Panicked?;
  }

  /** A projection loop that returns leaves a table with a schema as it was, and gives a
      generic one the schema of the first projected row. */
  lemma {:induction false} ProjectRowsSchema(rows: seq<Record>, names: seq<string>, acc: Table, iter: Iteration)
    requires IsIteration(iter)
    requires Valid(acc)
    ensures var o := ProjectRows(rows, names, acc, iter);
      o.Returned? && o.value.Ok? ==>
        && (acc.fieldTypes.Some? ==> o.value.value.fieldTypes == acc.fieldTypes)
        && (acc.fieldTypes.None? && |rows| > 0 ==>
             && |o.value.value.records| > 0
             && o.value.value.fieldTypes == Some(Adopt(o.value.value.records[0], iter(o.value.value.records[0].fields))))
    decreases |rows|
  {
    var o := ProjectRows(rows, names, acc, iter);
    if |rows| > 0 && o.Returned? && o.value.Ok? {
      ProjectRowsStep(rows, names, acc, iter);
      var row := Record(Pick(rows[0], names));
      var s := AddRecord(acc, row, iter);
      assert s.state.records == acc.records + [row];
      ProjectRowsSchema(rows[1..], names, s.state, iter);
      ProjectRowsAppends(rows[1..], names, s.state, iter);
      if acc.fieldTypes.None? {
        assert o.value.value.records[0] == s.state.records[0] == row;
      }
    }
  }

  /** When every row has the requested fields, `get_fields` on a table with a schema
      returns exactly when every row's projection has the first projection's shape, and
      otherwise the `unwrap` on adding a projected row panics. */
  lemma GetFieldsReturnsIff(t: Table, names: seq<string>, iter: Iteration)
    requires IsIteration(iter)
    requires t.fieldTypes.Some? && HasAll(t.records, names)
    ensures var o := GetFields(t, names, iter);
      var rows := t.records;
      && (o.Returned? ==> o.value.Ok?)
      && (o.Returned? <==>
           forall k :: 0 <= k < |rows| ==> SameShape(Record(Pick(rows[0], names)), Record(Pick(rows[k], names))))
  {
    var rows := t.records;
    var o := ProjectRows(rows, names, NewGeneric(), iter);
    ProjectRowsFails(rows, names, NewGeneric(), iter);
    if o.Returned? {
      ProjectRowsAppends(rows, names, NewGeneric(), iter);
      ProjectRowsSchema(rows, names, NewGeneric(), iter);
      if |rows| > 0 {
        var out := o.value.value.records;
        assert out == Projected(rows, names);
        forall k | 0 <= k < |rows|
          ensures SameShape(Record(Pick(rows[0], names)), Record(Pick(rows[k], names)))
        {
          ProjectedAt(rows, names, 0);
          ProjectedAt(rows, names, k);
          assert out[0] == Record(Pick(rows[0], names)) && out[k] == Record(Pick(rows[k], names));
          assert Conforms(out[k], o.value.value.fieldTypes.value);
          AdoptedSchemaFits(out[0], iter(out[0].fields), out[k]);
        }
      }
    } else if forall k :: 0 <= k < |rows| ==> SameShape(Record(Pick(rows[0], names)), Record(Pick(rows[k], names))) {
      ProjectRowsReturns(rows, names, NewGeneric(), iter);
    }
  }

  // ---- Filtering: `get_records_where` and `get_records_where_eql` ----

  /** The condition a filter keeps a row on. */
  datatype RowTest =
    | FieldEquals(name: string, value: Value)
    | FieldCompares(name: string, op: Operator, value: Value)

  predicate Keep(test: RowTest, r: Record)
  {
    match test
    case FieldEquals(n, v) => n in r.fields && r.fields[n] == v
    case FieldCompares(n, op, v) => n in r.fields && Comparable(r.fields[n], v) && Compare(op, r.fields[n], v)
  }

  /** `a` is `b` with some elements left out, the rest in their original order. */
  predicate Subsequence(a: seq<Record>, b: seq<Record>)
    decreases |b|
  {
    if |a| == 0 then true
    else if |b| == 0 then false
    else (a[0] == b[0] && Subsequence(a[1..], b[1..])) || Subsequence(a, b[1..])
  }

  /** The rows a test keeps, in their original order: the reference a filtered table is
      compared with. */
  function Filter(rows: seq<Record>, test: RowTest): seq<Record>
    decreases |rows|
  {
    if |rows| == 0 then []
    else (if Keep(test, rows[0]) then [rows[0]] else []) + Filter(rows[1..], test)
  }

  /** A filter's result is a subsequence of its input holding every kept row as often as
      the input does, and no other row. */
  lemma {:induction false} FilterSpec(rows: seq<Record>, test: RowTest)
    ensures Subsequence(Filter(rows, test), rows)
    ensures forall r :: multiset(Filter(rows, test))[r] == if Keep(test, r) then multiset(rows)[r] else 0
    decreases |rows|
  {
    if |rows| > 0 {
      var rest := Filter(rows[1..], test);
      FilterSpec(rows[1..], test);
      assert rows == [rows[0]] + rows[1..];
      assert multiset(rows) == multiset{rows[0]} + multiset(rows[1..]);
      if Keep(test, rows[0]) {
        assert Filter(rows, test) == [rows[0]] + rest;
        assert ([rows[0]] + rest)[1..] == rest;
        assert multiset(Filter(rows, test)) == multiset{rows[0]} + multiset(rest);
      } else {
        assert Filter(rows, test) == rest;
      }
    }
  }

  /** The loop of `get_records_where`: each row's field is fetched with an `unwrap`, and a
      row that passes the comparison is added, with another `unwrap`, to the result. */
  function WhereRows(rows: seq<Record>, name: string, op: Operator, cmp: Value, acc: Table, iter: Iteration): (o: Outcome<Table>)
    requires ToType(cmp) != ValueType.Float
    requires acc.fieldTypes.Some?
    ensures o.Returned? ==> o.value.fieldTypes == acc.fieldTypes
    ensures o.Returned? ==> |acc.records| <= |o.value.records| <= |acc.records| + |rows|
    decreases |rows|
  {
    if |rows| == 0 then Returned(acc)
    else
      match Records.GetField(rows[0], name, ToType(cmp))
      case Err(_) => Panicked
      case Ok(v) =>
        if Compare(op, v, cmp) then
          var s := AddRecord(acc, rows[0], iter);
          if s.result.Err? then Panicked else WhereRows(rows[1..], name, op, cmp, s.state, iter)
        else WhereRows(rows[1..], name, op, cmp, acc, iter)
  }

  /** `get_records_where::<T>`, where `cmp` is the comparison value; `T: Ord` rules out `f32`. */
  function GetRecordsWhere(t: Table, name: string, op: Operator, cmp: Value, iter: Iteration): (o: Outcome<Result<Table, TableError>>)
    requires ToType(cmp) != ValueType.Float
    ensures t.fieldTypes.None? ==> o == Returned(Ok(NewGeneric()))
    ensures t.fieldTypes.Some? && Lookup(t.fieldTypes.value, name).None? ==> o == Returned(Err(InvalidField))
    ensures t.fieldTypes.Some? && Lookup(t.fieldTypes.value, name).Some? && Lookup(t.fieldTypes.value, name).value != ToType(cmp) ==>
      o == Returned(Err(MismatchedTypes))
  {
    match t.fieldTypes
    case None => Returned(Ok(NewGeneric()))
    case Some(s) =>
      match Lookup(s, name)
      case None => Returned(Err(InvalidField))
      case Some(ty) =>
        if ty != ToType(cmp) then Returned(Err(MismatchedTypes))
        else
          match WhereRows(t.records, name, op, cmp, Table(Some(s), []), iter)
          case Panicked => Panicked
          case Returned(r) => Returned(Ok(r))
  }

  lemma {:induction false} WhereRowsFilters(rows: seq<Record>, name: string, op: Operator, cmp: Value, acc: Table, iter: Iteration)
    requires ToType(cmp) != ValueType.Float
    requires acc.fieldTypes.Some?
    requires forall k :: 0 <= k < |rows| ==> Conforms(rows[k], acc.fieldTypes.value)
    requires forall k :: 0 <= k < |rows| ==> FieldOk(rows[k], Field(name, ToType(cmp)))
    ensures WhereRows(rows, name, op, cmp, acc, iter) == Returned(Table(acc.fieldTypes, acc.records + Filter(rows, FieldCompares(name, op, cmp))))
    decreases |rows|
  {
    if |rows| == 0 {
      assert acc.records + [] == acc.records;
    } else {
      assert FieldOk(rows[0], Field(name, ToType(cmp)));
      assert Records.GetField(rows[0], name, ToType(cmp)) == Ok(rows[0].fields[name]);
      var test := FieldCompares(name, op, cmp);
      forall k | 0 <= k < |rows[1..]| ensures Conforms(rows[1..][k], acc.fieldTypes.value) && FieldOk(rows[1..][k], Field(name, ToType(cmp))) {
        assert rows[1..][k] == rows[k + 1];
      }
      if Keep(test, rows[0]) {
        assert Conforms(rows[0], acc.fieldTypes.value);
        AddFittingRecord(acc, rows[0], iter);
        var s := AddRecord(acc, rows[0], iter);
        WhereRowsFilters(rows[1..], name, op, cmp, s.state, iter);
        assert Filter(rows, test) == [rows[0]] + Filter(rows[1..], test);
        assert acc.records + Filter(rows, test) == (acc.records + [rows[0]]) + Filter(rows[1..], test);
      } else {
        WhereRowsFilters(rows[1..], name, op, cmp, acc, iter);
        assert Filter(rows, test) == Filter(rows[1..], test);
      }
    }
  }

  /** On a valid table, a field the schema declares and a comparison value of its type,
      `get_records_where` returns a table with the same schema holding exactly the rows
      whose field compares as asked with the value, in their original order. */
  lemma GetRecordsWhereFilters(t: Table, name: string, op: Operator, cmp: Value, iter: Iteration)
    requires ToType(cmp) != ValueType.Float
    requires Valid(t) && t.fieldTypes.Some?
    requires Lookup(t.fieldTypes.value, name) == Some(ToType(cmp))
    ensures GetRecordsWhere(t, name, op, cmp, iter) == Returned(Ok(Table(t.fieldTypes, Filter(t.records, FieldCompares(name, op, cmp)))))
    ensures Valid(Table(t.fieldTypes, Filter(t.records, FieldCompares(name, op, cmp))))
  {
    var s := t.fieldTypes.value;
    forall k | 0 <= k < |t.records| ensures FieldOk(t.records[k], Field(name, ToType(cmp))) {
      SchemaTypeOfField(t.records[k], s, name, ToType(cmp));
    }
    WhereRowsFilters(t.records, name, op, cmp, Table(Some(s), []), iter);
    assert [] + Filter(t.records, FieldCompares(name, op, cmp)) == Filter(t.records, FieldCompares(name, op, cmp));
    FilterKeepsConforming(t.records, FieldCompares(name, op, cmp), s);
  }

  lemma FilterKeepsConforming(rows: seq<Record>, test: RowTest, s: Schema)
    requires forall k :: 0 <= k < |rows| ==> Conforms(rows[k], s)
    ensures forall k :: 0 <= k < |Filter(rows, test)| ==> Conforms(Filter(rows, test)[k], s)
  {
    var out := Filter(rows, test);
    FilterSpec(rows, test);
    forall k | 0 <= k < |out| ensures Conforms(out[k], s) {
      assert multiset(out)[out[k]] > 0;
      assert out[k] in multiset(rows);
    }
  }

  /** The loop of `get_records_where_eql`: like `WhereRows`, with `==` as the test. */
  function EqlRows(rows: seq<Record>, name: string, cmp: Value, acc: Table, iter: Iteration): (o: Outcome<Table>)
    requires acc.fieldTypes.Some?
    ensures o.Returned? ==> o.value.fieldTypes == acc.fieldTypes
    ensures o.Returned? ==> |acc.records| <= |o.value.records| <= |acc.records| + |rows|
    decreases |rows|
  {
    if |rows| == 0 then Returned(acc)
    else
      match Records.GetField(rows[0], name, ToType(cmp))
      case Err(_) => Panicked
      case Ok(v) =>
        if v == cmp then
          var s := AddRecord(acc, rows[0], iter);
          if s.result.Err? then Panicked else EqlRows(rows[1..], name, cmp, s.state, iter)
        else EqlRows(rows[1..], name, cmp, acc, iter)
  }

  /** `get_records_where_eql::<T>`: only the field's presence in the schema is checked
      before the scan. */
  function GetRecordsWhereEql(t: Table, name: string, cmp: Value, iter: Iteration): (o: Outcome<Result<Table, TableError>>)
    ensures t.fieldTypes.None? ==> o == Returned(Ok(NewGeneric()))
    ensures t.fieldTypes.Some? && Lookup(t.fieldTypes.value, name).None? ==> o == Returned(Err(InvalidField))
  {
    match t.fieldTypes
    case None => Returned(Ok(NewGeneric()))
    case Some(s) =>
      match Lookup(s, name)
      case None => Returned(Err(InvalidField))
      case Some(_) =>
        match EqlRows(t.records, name, cmp, Table(Some(s), []), iter)
        case Panicked => Panicked
        case Returned(r) => Returned(Ok(r))
  }

  lemma {:induction false} EqlRowsFilters(rows: seq<Record>, name: string, cmp: Value, acc: Table, iter: Iteration)
    requires acc.fieldTypes.Some?
    requires forall k :: 0 <= k < |rows| ==> Conforms(rows[k], acc.fieldTypes.value)
    requires forall k :: 0 <= k < |rows| ==> FieldOk(rows[k], Field(name, ToType(cmp)))
    ensures EqlRows(rows, name, cmp, acc, iter) == Returned(Table(acc.fieldTypes, acc.records + Filter(rows, FieldEquals(name, cmp))))
    decreases |rows|
  {
    if |rows| == 0 {
      assert acc.records + [] == acc.records;
    } else {
      assert FieldOk(rows[0], Field(name, ToType(cmp)));
      assert Records.GetField(rows[0], name, ToType(cmp)) == Ok(rows[0].fields[name]);
      var test := FieldEquals(name, cmp);
      forall k | 0 <= k < |rows[1..]| ensures Conforms(rows[1..][k], acc.fieldTypes.value) && FieldOk(rows[1..][k], Field(name, ToType(cmp))) {
        assert rows[1..][k] == rows[k + 1];
      }
      if Keep(test, rows[0]) {
        assert Conforms(rows[0], acc.fieldTypes.value);
        AddFittingRecord(acc, rows[0], iter);
        var s := AddRecord(acc, rows[0], iter);
        EqlRowsFilters(rows[1..], name, cmp, s.state, iter);
        assert Filter(rows, test) == [rows[0]] + Filter(rows[1..], test);
        assert acc.records + Filter(rows, test) == (acc.records + [rows[0]]) + Filter(rows[1..], test);
      } else {
        EqlRowsFilters(rows[1..], name, cmp, acc, iter);
        assert Filter(rows, test) == Filter(rows[1..], test);
      }
    }
  }

  /** On a valid table and a comparison value of the field's declared type,
      `get_records_where_eql` returns the same-schema table of exactly the rows whose field
      equals the value, in order. With a value of another type it panics on the first row,
      and only an empty table escapes. */
  lemma GetRecordsWhereEqlFilters(t: Table, name: string, cmp: Value, iter: Iteration)
    requires Valid(t) && t.fieldTypes.Some?
    requires Lookup(t.fieldTypes.value, name).Some?
    ensures Lookup(t.fieldTypes.value, name).value == ToType(cmp) ==>
      GetRecordsWhereEql(t, name, cmp, iter) == Returned(Ok(Table(t.fieldTypes, Filter(t.records, FieldEquals(name, cmp)))))
    ensures Lookup(t.fieldTypes.value, name).value != ToType(cmp) ==>
      GetRecordsWhereEql(t, name, cmp, iter) == if |t.records| == 0 then Returned(Ok(Table(t.fieldTypes, []))) else Panicked
    ensures Valid(Table(t.fieldTypes, Filter(t.records, FieldEquals(name, cmp))))
  {
    var s := t.fieldTypes.value;
    var ty := Lookup(s, name).value;
    forall k | 0 <= k < |t.records| ensures FieldOk(t.records[k], Field(name, ty)) {
      SchemaTypeOfField(t.records[k], s, name, ty);
    }
    if ty == ToType(cmp) {
      EqlRowsFilters(t.records, name, cmp, Table(Some(s), []), iter);
      assert [] + Filter(t.records, FieldEquals(name, cmp)) == Filter(t.records, FieldEquals(name, cmp));
    }
    FilterKeepsConforming(t.records, FieldEquals(name, cmp), s);
  }
}

=== FILE: values.dfy ===
/** The tagged scalar stored in every field (`src/value.rs`). */
module Values {
  import opened Wrappers
  import opened Errors

  /** Rust's `i32`. */
  type I32 = x: int | -0x8000_0000 <= x < 0x8000_0000

  /** Rust's `u32`. */
  type U32 = x: int | 0 <= x < 0x1_0000_0000

  /** An `f32`, kept as its bit pattern: the engine only copies and compares floats. */
  datatype F32 = F32(bits: bv32)

  /** The type tag of a value, as used in a table's schema. */
  datatype ValueType = Str | Int | UInt | Float

  /** A field value: exactly one of text, a signed or unsigned 32-bit integer, or a float. */
  datatype Value = Str(text: string) | Int(i32: I32) | UInt(u32: U32) | Float(f32: F32)

  /** `to_type`: the type tag of a value's variant. */
  function ToType(v: Value): ValueType
  {
    match v
    case Str(_) => ValueType.Str
    case Int(_) => ValueType.Int
    case UInt(_) => ValueType.UInt
    case Float(_) => ValueType.Float
  }

  /** Each variant is classified by the type tag of the same name. */
  lemma ToTypeNamesVariant(v: Value)
    ensures ToType(v) == ValueType.Str <==> v.Str?
    ensures ToType(v) == ValueType.Int <==> v.Int?
    ensures ToType(v) == ValueType.UInt <==> v.UInt?
    ensures ToType(v) == ValueType.Float <==> v.Float?
  {
  }

  // The four `TryFrom<&Value>` extractions: the payload of the matching variant,
  // `MismatchedTypes` for every other variant.

  function AsStr(v: Value): (r: Result<string, TableError>)
    ensures r.Ok? <==> ToType(v) == ValueType.Str
    ensures r.Err? ==> r.error == MismatchedTypes
  {
    match v
    case Str(s) => Ok(s)
    case _ => Err(MismatchedTypes)
  }

  function AsI32(v: Value): (r: Result<I32, TableError>)
    ensures r.Ok? <==> ToType(v) == ValueType.Int
    ensures r.Err? ==> r.error == MismatchedTypes
  {
    match v
    case Int(x) => Ok(x)
    case _ => Err(MismatchedTypes)
  }

  function AsU32(v: Value): (r: Result<U32, TableError>)
    ensures r.Ok? <==> ToType(v) == ValueType.UInt
    ensures r.Err? ==> r.error == MismatchedTypes
  {
    match v
    case UInt(x) => Ok(x)
    case _ => Err(MismatchedTypes)
  }

  function AsF32(v: Value): (r: Result<F32, TableError>)
    ensures r.Ok? <==> ToType(v) == ValueType.Float
    ensures r.Err? ==> r.error == MismatchedTypes
  {
    match v
    case Float(x) => Ok(x)
    case _ => Err(MismatchedTypes)
  }

  // The four `From<scalar>` constructors. Each is undone by the matching extraction.

  function FromStr(s: string): (v: Value)
    ensures ToType(v) == ValueType.Str
    ensures AsStr(v) == Ok(s)
  {
    Value.Str(s)
  }

  function FromI32(x: I32): (v: Value)
    ensures ToType(v) == ValueType.Int
    ensures AsI32(v) == Ok(x)
  {
    Value.Int(x)
  }

  function FromU32(x: U32): (v: Value)
    ensures ToType(v) == ValueType.UInt
    ensures AsU32(v) == Ok(x)
  {
    Value.UInt(x)
  }

  function FromF32(x: F32): (v: Value)
    ensures ToType(v) == ValueType.Float
    ensures AsF32(v) == Ok(x)
  {
    Value.Float(x)
  }

  /** `value.try_into()` for a native type `T`, where `want` is the tag of `T`: the
      dispatch to the four extractions above, with the payload put back into a value. */
  function Extract(v: Value, want: ValueType): (r: Result<Value, TableError>)
    ensures r.Ok? <==> ToType(v) == want
    ensures r.Ok? ==> r.value == v
    ensures r.Err? ==> r.error == MismatchedTypes
  {
    match want
    case Str => (match AsStr(v) case Ok(s) => Ok(FromStr(s)) case Err(e) => Err(e))
    case Int => (match AsI32(v) case Ok(x) => Ok(FromI32(x)) case Err(e) => Err(e))
    case UInt => (match AsU32(v) case Ok(x) => Ok(FromU32(x)) case Err(e) => Err(e))
    case Float => (match AsF32(v) case Ok(x) => Ok(FromF32(x)) case Err(e) => Err(e))
  }
}

=== FILE: wrappers.dfy ===
/** The result shapes the engine's operations return. */
module Wrappers {

  /** Rust's `Option`: a value or nothing. */
  datatype Option<+T> = None | Some(value: T)

  /** Rust's `Result`: a success value or an error. */
  datatype Result<+T, +E> = Ok(value: T) | Err(error: E)

  /** What running code that contains an `unwrap` yields: either it returns, or the
      `unwrap` met an error and the program panicked. */
  datatype Outcome<+T> = Returned(value: T) | Panicked

  /** A call on `&mut self`: the receiver's state after the call together with what
      the call returned. */
  datatype Step<+S, +R> = Step(state: S, result: R)
}
